=== FILE: README.md ===
# omdb-api document store, modelled in Dafny

This project models the data layer of the omdb-api service. The layer is a
Firestore client for one collection (`FirestoreClient`), its error
hierarchy, the movie and user repositories built on the client, the movie
and user services built on those, and the construction of access-token
claims. Every layer is modelled over an immutable, in-memory collection.

- **Collection.** A `Backend.Store` is a sequence of snapshots kept
  strictly ascending by document id. Ids are compared code point by code
  point (`KeyOrder.Less`), which stands for Firestore's `__name__` order.
  `Backend.Contents` is the map view, and most contracts are stated
  against it.
- **Backend failures.** An oracle `fails: Call -> bool` says which backend
  requests raise. This lets the contracts state exactly how each failure
  is mapped: into `DocumentReadError` and its relatives, or re-raised as is
  (`Errors.Raw(BackendFailure(call))`).
- **Writes.** Operations that write return the collection afterwards: the
  client and the repositories in a `Firestore.Step`, the movie service in a
  `MovieService.Effect`, the user service in a `UserService.Created`.
- **Services.** Services return the log entries they would have written,
  as `Logging.LogEntry` values. `notify_empty_collection` returns the
  messages it publishes.
- **Foreign code as parameters.** The password hash, the password check,
  the JOSE encoder, the clock and the environment variables are parameters.

Two behaviours of the code are easy to misread:

- **Short final page.** `get_paginated_documents` returns the last id of
  every non-empty page as the next-page token, a short final page
  included (app/clients/firestore/firestore.py:203). So following tokens
  always ends with one request that returns an empty page without a
  token. With ids a < b < c and pages of two, the second page is
  `([c], "c")`, not `([c], None)`; see `Paging.ThreeDocumentsInPagesOfTwo`.
- **Zero expiry delta.** A zero `expires_delta` is falsy in Python, so
  `create_access_token` uses the configured lifetime for it, not a token
  that expires at once (app/auth/utils.py:21-24); see
  `Auth.ZeroDeltaUsesDefault`.

Further modelling decisions:

- **Empty key.** An empty key makes the joined path name the collection
  itself, which the client library rejects inside the `try`. A get then
  fails with `DocumentReadError` and a create with `DocumentWriteError`.
  So a stored id is never empty, and that is part of `Backend.Valid`.
- **Page size.** Paging and the full scan require `pageSize >= 1`, which
  the HTTP router guarantees (app/routers/movies.py:22). With 0,
  `len(docs) < page_size` never holds, so the scan reaches `docs[-1]` on
  an empty page and re-raises the resulting `IndexError`
  (app/clients/firestore/firestore.py:149-155). That path is not modelled.

## Model

| member | source | states |
|---|---|---|
| KeyOrder.LessTotal | app/clients/firestore/firestore.py:140 | any two distinct ids are ordered one way or the other, so `order_by("__name__")` is a total order |
| KeyOrder.LessTransitive | app/clients/firestore/firestore.py:195 | the id order is transitive |
| KeyOrder.LessAsymmetric | app/clients/firestore/firestore.py:195 | the id order is strict: never both a < b and b < a |
| Backend.Find | app/clients/firestore/firestore.py:53 | a point read finds a snapshot exactly when the id is in the collection, and returns that id's stored fields |
| Backend.InsertSorted | app/clients/firestore/firestore.py:97 | an atomic create of an absent id keeps the ids ascending, adds exactly that id with that payload and keeps every other snapshot |
| Backend.RemoveContents | app/clients/firestore/firestore.py:120 | a delete removes exactly the given id from the map view |
| Backend.RemoveMembers | app/clients/firestore/firestore.py:120 | after a delete, the remaining snapshots are exactly those with a different id |
| Backend.RemoveSorted | app/clients/firestore/firestore.py:120 | a delete keeps the ids ascending |
| Backend.AfterSuffix | app/clients/firestore/firestore.py:142 | `start_after` a stored id yields exactly the documents behind it |
| Backend.QueryWindow | app/clients/firestore/firestore.py:195-202 | an ordered, limited query with an optional `start_after` is the window of at most `limit` documents right behind the cursor |
| Backend.FirstWithTitle | app/clients/firestore/firestore.py:72-74 | the `Title` query with limit 1 finds nothing exactly when no document has that title; otherwise it finds a matching document, and no match has a smaller id |
| Errors.Lineage | app/clients/firestore/errors.py:1-22 | each error class's base-class chain runs from the class to `FirestoreBaseError`, and `IsA` holds exactly for the classes on it |
| Errors.IsAPartialOrder | app/clients/firestore/errors.py:1-22 | the subclass relation is reflexive, transitive and antisymmetric |
| Errors.SingleInheritance | app/clients/firestore/errors.py:1-22 | any two ancestors of a class are related to each other: inheritance is single |
| Errors.Hierarchy | app/clients/firestore/errors.py:1-22 | not-found is a read error and already-exists is a write error; every class is a `FirestoreBaseError`; read, write and delete errors are pairwise unrelated; not-found is neither a write nor a delete error, and already-exists is neither a read nor a delete error |
| Firestore.GetDocument | app/clients/firestore/firestore.py:37-59 | success exactly when the key names a document, the read does not fail and the key is stored, and then returns the stored fields; `DocumentNotFoundError` exactly when the read succeeds on an absent key; every error is caught by `except DocumentReadError` |
| Firestore.GetDocumentByTitle | app/clients/firestore/firestore.py:61-78 | raises the backend's own error exactly when the query fails; otherwise `None` exactly when no document has the title, or a stored document with that title |
| Firestore.CreateDocument | app/clients/firestore/firestore.py:80-104 | `DocumentAlreadyExistsError` exactly on a present key, with the collection unchanged; on an absent key whose create succeeds, the payload is stored, and the result is the stored payload exactly when the read-back succeeds (otherwise `DocumentWriteError` with the document kept); any other failure is a `DocumentWriteError` and changes nothing |
| Firestore.DeleteDocument | app/clients/firestore/firestore.py:106-123 | succeeds exactly when `get_document` succeeds and the delete does not fail, and then removes exactly that key; errors of `get_document` propagate; a failing delete is `DocumentDeleteError`; on any error the collection is unchanged |
| Firestore.ContentsSize | app/clients/firestore/firestore.py:97 | in an id-ordered collection each snapshot is its own map entry |
| Firestore.IsCollectionEmpty | app/clients/firestore/firestore.py:157-173 | raises the backend error exactly when the probe fails; otherwise true exactly when the collection has no documents |
| Firestore.ResolveCursor | app/clients/firestore/firestore.py:196-199 | a truthy `start_after` costs a read whose failure propagates with the backend's error; otherwise the query starts after the cursor exactly when it names a stored document |
| Firestore.Paginate | app/clients/firestore/firestore.py:175-204 | fails exactly when the cursor read or the range query fails, and then re-raises the backend error of exactly that call (the cursor read when it fails, else the range query with the effective cursor); otherwise returns the window of at most `page_size` documents right behind an honoured cursor (or from the start), and as token the id of the last document, `None` exactly for an empty page |
| Firestore.UnknownCursorRestarts | app/clients/firestore/firestore.py:196-199 | a missing, empty or unknown cursor gives the same result as no cursor |
| Firestore.GetAllDocuments | app/clients/firestore/firestore.py:125-155 | without a failure the scan yields every document once in id order, using `n / page_size + 1` fetches (one extra empty fetch when `n` is a multiple of the page size); every fetch before the last one issued succeeded, so a scan ends without error only when none of its range queries failed; a failed fetch stops the scan after full pages and re-raises the backend's error for exactly the range query that failed, the one starting after the last document yielded |
| Firestore.ScanStep | app/clients/firestore/firestore.py:139-155 | one fetch of the scan: a failing query stops it with that query's backend error and nothing new yielded; a short page stops it with every document yielded after `n / page_size + 1` fetches; a full page extends the yielded prefix of the collection by `page_size` and moves the cursor to its last document |
| Firestore.FetchPage | app/clients/firestore/firestore.py:140-152 | one scan page continues the documents yielded so far; a short page is the end of the collection |
| Paging.PageWindow | app/clients/firestore/firestore.py:195-204 | on a backend that answers, a page is the next window of the collection and carries its last id as token |
| Paging.StartBehind | app/clients/firestore/firestore.py:196-199 | a stored id passed back as `start_after` resumes right behind that document |
| Paging.NextPage | app/clients/firestore/firestore.py:195-204 | on a backend where no request fails, `get_paginated_documents` always answers with a page |
| Paging.NextPageResumes | app/clients/firestore/firestore.py:196-204 | each request of a token-following caller returns the next window of the collection; its token is `None` exactly when that window is empty, and otherwise passing it back resumes right behind the window |
| Paging.Advance | app/clients/firestore/firestore.py:196-204 | a non-empty page extends the documents seen so far and uses up exactly one page of the remainder |
| Paging.Close | app/clients/firestore/firestore.py:203 | the empty page that ends token following completes the walk: all documents seen, `ceil(n / page_size) + 1` requests, the last page empty with no token, every earlier page non-empty and carrying its last id |
| Paging.FollowTokens | app/clients/firestore/firestore.py:175-204 | following tokens from no cursor until one is `None` visits every document exactly once in id order, in `ceil(n / page_size) + 1` requests; every page before the last is non-empty and carries its last id; the last is empty with no token |
| Paging.PagesForIsCeiling | app/clients/firestore/firestore.py:195 | the number of non-empty pages of `n` documents is `ceil(n / page_size)` |
| Paging.ThreeDocumentsInPagesOfTwo | app/clients/firestore/firestore.py:195-204 | for ids a < b < c and pages of two: `([a, b], "b")`, then `([c], "c")`, then `([], None)`; an unknown cursor restarts |
| Auth.LeadIsWhitespace | app/auth/utils.py:24 | the leading run that stripping drops consists of whitespace only |
| Auth.TrailIsWhitespace | app/auth/utils.py:24 | the trailing run that stripping drops consists of whitespace only |
| Auth.Strip | app/auth/utils.py:24 | `int()` ignores surrounding whitespace: the stripped text is the slice of the input right after its leading whitespace, everything after the slice is whitespace, and the slice neither starts nor ends with whitespace |
| Auth.ParseShowInt | app/auth/utils.py:24 | `int(str(n)) == n` for every integer |
| Auth.DefaultTtl | app/tools/config.py:10-11 | the default setting "30" reads as 30 |
| Auth.ParsePadded | app/auth/utils.py:24 | a padded, signed setting such as " +30\n" reads as 30 |
| Auth.ParseRejects | app/auth/utils.py:24 | a word, an empty string or a lone sign is rejected (`ValueError`) |
| Auth.Expiry | app/auth/utils.py:21-24 | `exp` is now plus a truthy delta; otherwise now plus the configured minutes, or `ValueError` when `int()` rejects the setting |
| Auth.ZeroDeltaUsesDefault | app/auth/utils.py:21-24 | a zero delta behaves exactly like no delta, and with the variable unset `exp` is thirty minutes after now |
| Auth.ClaimsToEncode | app/auth/utils.py:20-25 | the encoded claims have exactly the input's keys plus `exp`; `exp` is set, overwriting any old one, and every other claim is unchanged |
| Auth.CreateAccessToken | app/auth/utils.py:19-28 | an expiry error propagates; otherwise the token is the encoder's output for exactly the claims to encode, with the configured key and algorithm, and an encoder failure is raised |
| Auth.TruthyDeltaIgnoresSetting | app/auth/utils.py:21-22 | with a truthy delta the lifetime setting is never read, so only a signing failure can make minting fail |
| MovieRepository.GetAllMovies | app/repositories/movies/repository.py:46-50 | the page of `get_paginated_documents` for the same page size and cursor, one movie per document in the same order, and the token unchanged; a failure propagates unchanged |
| MovieRepository.GetMovieById | app/repositories/movies/repository.py:52-62 | the stored movie for a present id, `DocumentNotFoundError` for an absent one, and only read errors otherwise |
| MovieRepository.GetMovieByTitle | app/repositories/movies/repository.py:64-74 | fails exactly when the query fails, with the client's error unchanged; `None` exactly when no stored movie has the title; otherwise a stored movie with that title |
| MovieRepository.CreateMovie | app/repositories/movies/repository.py:76-87 | a string `imdbID` is the key the payload is created under: an absent key is stored with exactly the payload, an existing one gives the conflict error, and every other failure leaves the collection unchanged, with the client's write errors; a missing or non-string id raises a `TypeError` and changes nothing |
| MovieRepository.DeleteMovie | app/repositories/movies/repository.py:89-96 | removes exactly the id when it is readable and the delete succeeds; otherwise the lookup's error propagates, or `DocumentDeleteError` is raised when the delete fails, with the collection unchanged |
| MovieRepository.CheckEmptyCollection | app/repositories/movies/repository.py:98-105 | true exactly when the collection is empty; a failure of the probe propagates as the backend's error for that probe |
| MovieRepository.CreateThenGet | app/repositories/movies/repository.py:76-87 | a created movie is read back by its IMDb id, with the payload as its fields |
| MovieRepository.DeleteThenGet | app/repositories/movies/repository.py:89-96 | a deleted movie is no longer found |
| UserRepository.UserDict | app/models/users.py:8-10 | `user.dict()` has exactly the fields `email` and `password` |
| UserRepository.AddUser | app/repositories/users/repository.py:16-29 | creates the user's dict under the email and returns a user with that email; the client's errors and resulting collection come through unchanged; a duplicate email is `DocumentAlreadyExistsError` |
| UserRepository.FromStored | app/repositories/users/repository.py:43-45 | a stored document without `password` raises `KeyError`; otherwise the user has the stored email and the stored `password` as its hashed password, or validation fails for a missing or non-string field |
| UserRepository.GetUserByEmail | app/repositories/users/repository.py:31-46 | a success always holds a user (the `None` branch is unreachable); an absent email raises `DocumentNotFoundError`; a found user carries the stored email and password |
| UserRepository.DeleteUser | app/repositories/users/repository.py:48-55 | removes exactly the email's document when it is readable and the delete succeeds; the lookup's error propagates unchanged (an absent email raises `DocumentNotFoundError`), a failing delete raises `DocumentDeleteError`; on any error the collection is unchanged |
| UserRepository.AddThenGet | app/repositories/users/repository.py:16-46 | a user that was added reads back with the submitted password as its hashed password |
| UserRepository.AddDuplicate | app/repositories/users/repository.py:28 | adding a stored email raises `DocumentAlreadyExistsError` and keeps the collection |
| UserRepository.DeleteThenGet | app/repositories/users/repository.py:48-55 | a deleted user is no longer found |
| MovieService.GetAllMovies | app/services/movies/service.py:22-23 | catches nothing: fails exactly when the page request fails, with the client's error unchanged; otherwise one movie per document of that page in the same order (at most `page_size`) and the page's token |
| MovieService.DefaultArguments | app/services/movies/service.py:22-23 | called with its defaults, it returns the movies of the first ten documents in id order |
| MovieService.GetMovieById | app/services/movies/service.py:25-30 | logs the INFO entry first; returns the stored movie exactly when the read succeeds, else `None` with one ERROR entry after the INFO entry |
| MovieService.GetMovieByTitle | app/services/movies/service.py:32-37 | logs the INFO entry first; `None` exactly when the lookup fails or nothing matches; an ERROR entry exactly when it fails; otherwise a stored movie with that title |
| MovieService.CreateMovie | app/services/movies/service.py:39-44 | returns the repository's created snapshot itself (its id is the payload's `imdbID`, its data the payload) exactly when the repository succeeds, else `None` with an ERROR entry naming the payload; the collection is whatever the repository left |
| MovieService.DeleteMovie | app/services/movies/service.py:46-51 | never raises: either exactly that movie is removed and only INFO is logged, or the collection is unchanged and an ERROR entry follows |
| MovieService.NotifyEmptyCollection | app/services/movies/service.py:53-59 | publishes `{"Status": "Empty"}` once exactly when the collection is empty and nothing otherwise; a failing emptiness check propagates as the probe's own backend error |
| MovieService.ErrorsAreLoggedOnce | app/services/movies/service.py:25-51 | the service's own log calls in a read or delete add at most one ERROR entry, after the INFO entry |
| UserService.CreateUser | app/services/users/service.py:15-21 | the caller's object ends up holding the hash; when the create goes through (non-empty, absent email and the create does not fail) the collection gains exactly the email's document holding the email and the hash, never the plaintext, even if the read-back then fails; otherwise the collection is unchanged, so a duplicate email never overwrites the stored user; a user is returned exactly when the create and read-back succeed, else `None` with an ERROR entry |
| UserService.AuthenticateUser | app/services/users/service.py:23-27 | lookup errors propagate, so an unknown email raises `DocumentNotFoundError`; the user is returned exactly when found and the password verifies against the stored hash, `None` otherwise |
| UserService.CreateTokenForUser | app/services/users/service.py:29-37 | the response is `{"access_token": t, "token_type": "bearer"}`, where t is the encoder's token for `{"sub": email, "exp": now + 30 min}`; an encoder failure gives `None` and an ERROR entry |
| UserService.CreateThenAuthenticate | app/services/users/service.py:15-27 | after a successful registration, authentication returns the user with the hash of the registered password exactly when the given password verifies against that hash, and `None` otherwise |

## Left out

- Firestore's `AsyncClient`, query objects and `DocumentSnapshot`: these are replaced by the ordered snapshot sequence and the failure oracle.
- The failure oracle is stateless: a given request either always fails or always succeeds. Transient failures are not modelled.
- Async execution and concurrency: a create-if-absent is one atomic step, and a scan sees a collection that does not change under it.
- `pathlib.Path` joining of collection name and key, apart from the empty key. Keys containing `/` or `..` are treated as opaque ids.
- Firestore.GetAllDocuments: it yields a page at once rather than one document at a time, so a stream that fails part-way through a page is not modelled.
- The client's own log calls (firestore.py:55, 76, 100, 103, 122, 154, 172): these are side effects next to an error that is raised anyway.
- The Pub/Sub client, its JSON encoding and its network publish: the service returns the published messages instead.
- MovieService.ErrorsAreLoggedOnce: it counts only the service's own log calls. The client and the service share one logger (app/routers/movies.py:14-18), so a failing read, title query or delete also carries the client's ERROR entry (firestore.py:55, 76, 122) before the service's; the client's log calls are not modelled.
- The logger singleton and Cloud Logging setup. Messages are kept as a template plus the interpolated subject; Python's rendering of a dictionary in a message is not modelled.
- Pydantic validation of `Movie`: a movie is the stored document's fields. `UserInDB` validation is modelled only as "field present and a string"; type coercion is not modelled.
- bcrypt and the JOSE encoder are uninterpreted function parameters. The conversion of `exp` to a numeric timestamp inside the encoder is not modelled.
- Auth.ParseInt: it accepts ASCII whitespace, one sign and ASCII digits. Python's `int()` also accepts underscores between digits, non-ASCII digits and non-ASCII whitespace such as U+00A0; those are not modelled, and neither is its limit of 4300 digits (Python 3.11 and later), past which it raises `ValueError`.
- Auth.Expiry: `datetime` is limited to years 1 to 9999 and `timedelta` to 999999999 days either way; an expiry outside that range raises `OverflowError` in the code (app/auth/utils.py:22, 24), while the model returns the unbounded sum. Instants are unbounded microsecond counts.
- The wall clock and `os.getenv`: `now` and the environment are parameters.
- A page size of 0: the requires `pageSize >= 1` excludes it, as the router does, so the scan's `IndexError` for it is not modelled.
- FastAPI routers, HTTP status mapping, `main.py` and the `lru_cache` client factories.

=== FILE: auth.dfy ===
/** Access tokens (`app/auth/utils.py`): the claims a token is minted from
    and their expiration time.

    The clock, the environment and the JOSE encoder are parameters. Time is
    counted in microseconds, the resolution of Python's `datetime`. */
module Auth {
  import opened Results
  import opened Errors

  /** A point in time, in microseconds since the epoch. */
  type Instant = int

  /** A `timedelta`, in microseconds. */
  type Duration = int

  const MicrosPerMinute: int := 60_000_000

  /** A claim's value: a string (`sub`) or a point in time (`exp`). */
  datatype ClaimValue = Text(s: string) | Time(t: Instant)

  type Claims = map<string, ClaimValue>

  /** The environment variables the token code reads; `None` when unset. */
  datatype Env = Env(ttlMinutes: Option<string>, secretKey: Option<string>, algorithm: Option<string>)

  /** `Config.ACCESS_TOKEN_TTL_MINUTES()`: the variable, or "30" when unset. */
  function TtlSetting(env: Env): (r: string)
    ensures env.ttlMinutes.None? ==> r == "30"
    ensures env.ttlMinutes.Some? ==> r == env.ttlMinutes.value
  {
    env.ttlMinutes.GetOr("30")
  }

  /** `jwt.encode(claims, key, algorithm)`: the token, or `None` when the
      encoder raises (for instance on a missing key or algorithm). */
  type Signer = (Claims, Option<string>, Option<string>) -> Option<string>

  // ---- Python's int() on a decimal string --------------------------------

  predicate IsSpace(c: char) {
    c == ' ' || c == '\t' || c == '\n' || c == '\r' || c as int == 11 || c as int == 12
  }

  predicate IsDigit(c: char) {
    '0' <= c <= '9'
  }

  predicate AllDigits(t: string) {
    forall i :: 0 <= i < |t| ==> IsDigit(t[i])
  }

  /** The number of whitespace characters `t` starts with. */
  function Lead(t: string): (n: nat)
    ensures n <= |t|
    ensures n < |t| ==> !IsSpace(t[n])
  {
    if |t| == 0 || !IsSpace(t[0]) then 0 else Lead(t[1..]) + 1
  }

  /** Every character `Lead` counts is whitespace. */
  lemma {:induction false} LeadIsWhitespace(t: string)
    ensures forall k :: 0 <= k < Lead(t) ==> IsSpace(t[k])
    decreases |t|
  {
    if |t| > 0 && IsSpace(t[0]) {
      LeadIsWhitespace(t[1..]);
      forall k | 1 <= k < Lead(t)
        ensures IsSpace(t[k])
      {
        assert t[k] == t[1..][k - 1];
      }
    }
  }

  /** The number of whitespace characters `t` ends with. */
  function Trail(t: string): (n: nat)
    ensures n <= |t|
    ensures n < |t| ==> !IsSpace(t[|t| - 1 - n])
  {
    if |t| == 0 || !IsSpace(t[|t| - 1]) then 0 else Trail(t[..|t| - 1]) + 1
  }

  /** Every character `Trail` counts is whitespace. */
  lemma {:induction false} TrailIsWhitespace(t: string)
    ensures forall k :: |t| - Trail(t) <= k < |t| ==> IsSpace(t[k])
    decreases |t|
  {
    if |t| > 0 && IsSpace(t[|t| - 1]) {
      var u := t[..|t| - 1];
      TrailIsWhitespace(u);
      forall k | |t| - Trail(t) <= k < |t| - 1
        ensures IsSpace(t[k])
      {
        assert t[k] == u[k];
      }
    }
  }

  /** `t.strip()`: `t` without its leading and its trailing whitespace. The
      result is the slice right after the leading whitespace, everything
      after it is whitespace, and it neither starts nor ends with whitespace. */
  function Strip(t: string): (r: string)
    ensures Lead(t) + |r| <= |t| && r == t[Lead(t)..Lead(t) + |r|]
    ensures forall k :: Lead(t) + |r| <= k < |t| ==> IsSpace(t[k])
    ensures |r| > 0 ==> !IsSpace(r[0]) && !IsSpace(r[|r| - 1])
  {
    var a := Lead(t);
    var u := t[a..];
    var r := u[..|u| - Trail(u)];
    TrailIsWhitespace(u);
    SpacesAfterCore(t, a, u, |r|, Trail(u));
    r
  }

  lemma SpacesAfterCore(t: string, a: nat, u: string, m: nat, n: nat)
    requires a <= |t| && u == t[a..] && m + n == |u|
    requires forall k :: |u| - n <= k < |u| ==> IsSpace(u[k])
    ensures forall k :: a + m <= k < |t| ==> IsSpace(t[k])
  {
    forall k | a + m <= k < |t|
      ensures IsSpace(t[k])
    {
      assert t[k] == u[k - a];
    }
  }

  lemma StripUnpadded(t: string)
    requires |t| > 0 && !IsSpace(t[0]) && !IsSpace(t[|t| - 1])
    ensures Strip(t) == t
  {
  }

  function DigitValue(c: char): (r: nat)
    requires IsDigit(c)
    ensures r < 10
  {
    (c as int) - ('0' as int)
  }

  function DigitChar(d: nat): (c: char)
    requires d < 10
    ensures IsDigit(c) && DigitValue(c) == d
  {
    (('0' as int) + d) as char
  }

  /** The number a string of decimal digits denotes. */
  function DigitsValue(t: string): nat
    requires AllDigits(t)
  {
    if |t| == 0 then 0 else DigitsValue(t[..|t| - 1]) * 10 + DigitValue(t[|t| - 1])
  }

  /** `int(t)` for a decimal string: surrounding whitespace, an optional sign,
      then at least one ASCII digit; anything else raises `ValueError`. */
  function ParseInt(t: string): (r: Option<int>)
  {
    ParseSigned(Strip(t))
  }

  /** What `int()` accepts once the whitespace is gone: an optional sign,
      then at least one ASCII digit. */
  function ParseSigned(u: string): (r: Option<int>)
  {
    var negative := |u| > 0 && u[0] == '-';
    var digits := if |u| > 0 && (u[0] == '-' || u[0] == '+') then u[1..] else u;
    if |digits| > 0 && AllDigits(digits) then
      var v: int := DigitsValue(digits);
      Some(if negative then -v else v)
    else None
  }

  /** The decimal numeral of `n`, without leading zeros. */
  function ShowNat(n: nat): (r: string)
    ensures |r| > 0 && AllDigits(r)
  {
    if n < 10 then [DigitChar(n)] else ShowNat(n / 10) + [DigitChar(n % 10)]
  }

  /** `str(n)`. */
  function ShowInt(n: int): (r: string)
    ensures |r| > 0
  {
    if n < 0 then "-" + ShowNat(-n) else ShowNat(n)
  }

  lemma {:induction false} ShowNatValue(n: nat)
    ensures DigitsValue(ShowNat(n)) == n
  {
    var r := ShowNat(n);
    if n >= 10 {
      ShowNatValue(n / 10);
      assert r[..|r| - 1] == ShowNat(n / 10);
    }
  }

  /** A digit string parses to its value `v`, and with a minus sign in
      front to `-v`. */
  lemma ParseDigits(u: string, v: nat)
    requires |u| > 0 && AllDigits(u) && DigitsValue(u) == v
    ensures ParseSigned(u) == Some(v)
    ensures ParseSigned("-" + u) == Some(-(v as int))
  {
    assert ("-" + u)[1..] == u;
  }

  /** A numeral carries no surrounding whitespace. */
  lemma ShowIntUnpadded(n: int)
    ensures Strip(ShowInt(n)) == ShowInt(n)
  {
    var r := ShowInt(n);
    if n < 0 {
      var d := ShowNat(-n);
      assert r == "-" + d;
      assert r[|r| - 1] == d[|d| - 1];
    }
    StripUnpadded(r);
  }

  /** `int(str(n)) == n`: the numeral of every integer parses back to it. */
  lemma ParseShowInt(n: int)
    ensures ParseInt(ShowInt(n)) == Some(n)
  {
    var r := ShowInt(n);
    ShowIntUnpadded(n);
    if n < 0 {
      ShowNatValue(-n);
      ParseDigits(ShowNat(-n), -n);
      assert r == "-" + ShowNat(-n);
    } else {
      ShowNatValue(n);
      ParseDigits(ShowNat(n), n);
      assert r == ShowNat(n);
    }
    assert ParseSigned(r) == Some(n);
  }

  /** The default setting reads as thirty minutes. */
  lemma DefaultTtl()
    ensures ParseInt("30") == Some(30)
  {
    ParseShowInt(30);
    assert ShowInt(30) == "30";
  }

  /** Surrounding whitespace and a plus sign are accepted. */
  lemma ParsePadded()
    ensures ParseInt(" +30\n") == Some(30)
  {
    assert " +30\n"[1..] == "+30\n";
    assert Lead("+30\n") == 0;
    assert Lead(" +30\n") == 1;
    assert "+30\n"[..3] == "+30";
    assert Trail("+30") == 0;
    assert Trail("+30\n") == 1;
    assert Strip(" +30\n") == "+30";
    assert "+30"[1..] == "30";
    StripUnpadded("30");
    DefaultTtl();
  }

  /** Words, the empty string and a lone sign do not parse. */
  lemma ParseRejects()
    ensures ParseInt("thirty") == None
    ensures ParseInt("") == None
    ensures ParseInt("-") == None
  {
    assert !IsDigit('t');
    StripUnpadded("thirty");
    StripUnpadded("-");
  }

  // ---- create_access_token -------------------------------------------------

  /** A `timedelta` argument is truthy when it is given and not zero. */
  predicate Truthy(delta: Option<Duration>) {
    delta.Some? && delta.value != 0
  }

  /** The `exp` claim: `now + delta` for a truthy delta, otherwise `now` plus
      the configured number of minutes; a setting `int()` rejects raises. */
  function Expiry(now: Instant, delta: Option<Duration>, env: Env): (r: Result<Instant, Error>)
    ensures Truthy(delta) ==> r == Ok(now + delta.value)
    ensures !Truthy(delta) ==>
              match ParseInt(TtlSetting(env))
              case None => r == Err(Raw(ValueError))
              case Some(m) => r == Ok(now + m * MicrosPerMinute)
  {
    if Truthy(delta) then Ok(now + delta.value)
    else
      var minutes :- ParseInt(TtlSetting(env)).ToResult(Raw(ValueError));
      Ok(now + minutes * MicrosPerMinute)
  }

  /** A zero delta is falsy: it does not expire the token at once but falls
      back to the default lifetime, exactly as if no delta were given. With
      the variable unset that lifetime is thirty minutes. */
  lemma ZeroDeltaUsesDefault(now: Instant, env: Env)
    ensures Expiry(now, Some(0), env) == Expiry(now, None, env)
    ensures env.ttlMinutes.None? ==> Expiry(now, None, env) == Ok(now + 30 * MicrosPerMinute)
  {
    if env.ttlMinutes.None? {
      DefaultTtl();
    }
  }

  /** `data.copy()` updated with `exp`: every claim of `data` except `exp`
      is carried over unchanged, and `exp` is set (replaced if present). */
  function ClaimsToEncode(data: Claims, exp: Instant): (r: Claims)
    ensures r.Keys == data.Keys + {"exp"}
    ensures r["exp"] == Time(exp)
    ensures forall k :: k in data && k != "exp" ==> r[k] == data[k]
  {
    data["exp" := Time(exp)]
  }

  /** `create_access_token(data, expires_delta)` at time `now`. The caller's
      `data` is a value and is left as it was. */
  function CreateAccessToken(data: Claims, delta: Option<Duration>, now: Instant, env: Env, sign: Signer)
    : (r: Result<string, Error>)
    ensures Expiry(now, delta, env).Err? ==> r == Err(Expiry(now, delta, env).error)
    ensures Expiry(now, delta, env).Ok? ==>
              var claims := ClaimsToEncode(data, Expiry(now, delta, env).value);
              match sign(claims, env.secretKey, env.algorithm)
              case None => r == Err(Raw(SigningError))
              case Some(t) => r == Ok(t)
  {
    var exp :- Expiry(now, delta, env);
    var token :- sign(ClaimsToEncode(data, exp), env.secretKey, env.algorithm).ToResult(Raw(SigningError));
    Ok(token)
  }

  /** With a truthy delta the lifetime setting is never read, so a malformed
      setting cannot make minting fail. */
  lemma TruthyDeltaIgnoresSetting(data: Claims, delta: Option<Duration>, now: Instant, env: Env, sign: Signer)
    requires Truthy(delta)
    ensures CreateAccessToken(data, delta, now, env, sign).Err? ==>
              CreateAccessToken(data, delta, now, env, sign) == Err(Raw(SigningError))
    ensures CreateAccessToken(data, delta, now, env, sign)
            == CreateAccessToken(data, delta, now, env.(ttlMinutes := Some("x")), sign)
  {
  }
}

=== FILE: backend.dfy ===
/** The remote collection the store client talks to, as an immutable value.

    The collection is a finite map from document id to document. The backend
    keeps it as a sequence of snapshots in ascending id order; `Contents`
    is the map view and the specifications are stated against it. */
module Backend {
  import opened Results
  import opened KeyOrder

  /** A field value of a stored document. */
  datatype Value =
    | Null
    | Bool(b: bool)
    | Int(i: int)
    | Str(s: string)
    | Array(items: seq<Value>)
    | Mapping(fields: map<string, Value>)

  /** A document's fields, by name. */
  type Doc = map<string, Value>

  /** `d.get(name)`: the field's value, or `None` when it is absent. */
  function Field(d: Doc, name: string): (r: Option<Value>)
    ensures r.Some? <==> name in d
    ensures r.Some? ==> r.value == d[name]
  {
    if name in d then Some(d[name]) else None
  }

  /** A document as read from the collection: its id and its fields. */
  datatype Snapshot = Snapshot(id: Key, data: Doc)

  /** The collection in `__name__` order. */
  type Store = seq<Snapshot>

  /** One request the client sends to the backend. */
  datatype Call =
    | Read(key: Key)
    | Create(key: Key)
    | Delete(key: Key)
    | TitleQuery(title: string)
    | RangeQuery(limit: nat, after: Option<Key>)
    | Probe

  /** Which backend requests raise instead of answering. */
  type Oracle = Call -> bool

  function Min(a: int, b: int): int {
    if a <= b then a else b
  }

  predicate Sorted(s: seq<Snapshot>) {
    forall i, j :: 0 <= i < j < |s| ==> Less(s[i].id, s[j].id)
  }

  /** The backend invariant: ids strictly ascending, and never empty. */
  predicate Valid(s: Store) {
    Sorted(s) && forall i :: 0 <= i < |s| ==> s[i].id != ""
  }

  /** The map view of a collection (an earlier snapshot wins on a repeated id). */
  function Contents(s: seq<Snapshot>): map<Key, Doc> {
    if |s| == 0 then map[] else Contents(s[1..])[s[0].id := s[0].data]
  }

  lemma {:induction false} ContentsHasAt(s: seq<Snapshot>, i: nat)
    requires i < |s|
    ensures s[i].id in Contents(s)
    decreases i
  {
    if i > 0 {
      ContentsHasAt(s[1..], i - 1);
    }
  }

  lemma EmptyContents(s: seq<Snapshot>)
    ensures |s| == 0 <==> Contents(s) == map[]
  {
    if |s| > 0 {
      assert s[0].id in Contents(s);
    }
  }

  /** Position of the first snapshot with id `k`. */
  function IndexOf(s: seq<Snapshot>, k: Key): (i: nat)
    requires k in Contents(s)
    ensures i < |s| && s[i].id == k
    ensures forall j :: 0 <= j < i ==> s[j].id != k
    ensures Contents(s)[k] == s[i].data
  {
    if s[0].id == k then 0 else IndexOf(s[1..], k) + 1
  }

  /** In a sorted collection an id's position is where it was found. */
  lemma SortedIndexOf(s: seq<Snapshot>, j: nat)
    requires Sorted(s) && j < |s|
    ensures s[j].id in Contents(s)
    ensures IndexOf(s, s[j].id) == j
    ensures Contents(s)[s[j].id] == s[j].data
  {
    ContentsHasAt(s, j);
    var i := IndexOf(s, s[j].id);
    if i < j {
      LessIrreflexive(s[j].id);
    }
  }

  /** A point lookup by id: the first snapshot with that id. */
  function Find(s: seq<Snapshot>, k: Key): (r: Option<Snapshot>)
    ensures r.Some? <==> k in Contents(s)
    ensures r.Some? ==> r.value == Snapshot(k, Contents(s)[k])
  {
    if |s| == 0 then None
    else if s[0].id == k then Some(s[0])
    else Find(s[1..], k)
  }

  /** Adds a document at its place in id order (the atomic create). */
  function Insert(s: Store, e: Snapshot): Store {
    if |s| == 0 || Less(e.id, s[0].id) then [e] + s
    else [s[0]] + Insert(s[1..], e)
  }

  lemma {:induction false} InsertSorted(s: Store, e: Snapshot)
    requires Sorted(s) && e.id !in Contents(s)
    ensures Sorted(Insert(s, e))
    ensures Contents(Insert(s, e)) == Contents(s)[e.id := e.data]
    ensures forall x :: x in Insert(s, e) <==> x in s || x == e
  {
    InsertOrder(s, e);
    InsertContents(s, e);
    InsertMembers(s, e);
  }

  lemma {:induction false} InsertMembers(s: Store, e: Snapshot)
    ensures forall x :: x in Insert(s, e) <==> x in s || x == e
  {
    if |s| > 0 && !Less(e.id, s[0].id) {
      InsertMembers(s[1..], e);
      assert forall x :: x in s <==> x == s[0] || x in s[1..];
    }
  }

  lemma {:induction false} InsertContents(s: Store, e: Snapshot)
    requires e.id !in Contents(s)
    ensures Contents(Insert(s, e)) == Contents(s)[e.id := e.data]
  {
    if |s| == 0 {
    } else if Less(e.id, s[0].id) {
      assert ([e] + s)[1..] == s;
    } else {
      assert s[0].id in Contents(s);
      InsertContents(s[1..], e);
      assert ([s[0]] + Insert(s[1..], e))[1..] == Insert(s[1..], e);
    }
  }

  lemma {:induction false} InsertOrder(s: Store, e: Snapshot)
    requires Sorted(s) && e.id !in Contents(s)
    ensures Sorted(Insert(s, e))
  {
    if |s| == 0 {
    } else if Less(e.id, s[0].id) {
      forall j | 0 <= j < |s|
        ensures Less(e.id, s[j].id)
      {
        if j > 0 {
          LessTransitive(e.id, s[0].id, s[j].id);
        }
      }
    } else {
      assert s[0].id in Contents(s);
      LessTotal(e.id, s[0].id);
      InsertOrder(s[1..], e);
      InsertMembers(s[1..], e);
      var r := Insert(s[1..], e);
      forall j | 0 <= j < |r|
        ensures Less(s[0].id, r[j].id)
      {
        assert r[j] in r;
        if r[j] != e {
          var k :| 0 <= k < |s[1..]| && s[1..][k] == r[j];
          assert s[k + 1] == r[j];
        }
      }
    }
  }

  /** Drops the document with id `k`, if any. */
  function Remove(s: Store, k: Key): Store {
    if |s| == 0 then []
    else if s[0].id == k then Remove(s[1..], k)
    else [s[0]] + Remove(s[1..], k)
  }

  lemma {:induction false} RemoveMembers(s: Store, k: Key)
    ensures forall x :: x in Remove(s, k) <==> x in s && x.id != k
  {
    if |s| > 0 {
      RemoveMembers(s[1..], k);
      assert forall x :: x in s <==> x == s[0] || x in s[1..];
    }
  }

  lemma {:induction false} RemoveContents(s: Store, k: Key)
    ensures Contents(Remove(s, k)) == Contents(s) - {k}
  {
    if |s| > 0 {
      RemoveContents(s[1..], k);
      if s[0].id != k {
        assert ([s[0]] + Remove(s[1..], k))[1..] == Remove(s[1..], k);
      }
    }
  }

  lemma {:induction false} RemoveSorted(s: Store, k: Key)
    requires Sorted(s)
    ensures Sorted(Remove(s, k))
  {
    if |s| > 0 {
      RemoveSorted(s[1..], k);
      RemoveMembers(s[1..], k);
      var r := Remove(s[1..], k);
      if s[0].id != k {
        forall j | 0 <= j < |r|
          ensures Less(s[0].id, r[j].id)
        {
          assert r[j] in r;
          var m :| 0 <= m < |s[1..]| && s[1..][m] == r[j];
          assert s[m + 1] == r[j];
        }
      }
    }
  }

  /** The snapshots whose id sorts strictly after `k`, in order. */
  function After(s: seq<Snapshot>, k: Key): seq<Snapshot> {
    if |s| == 0 then []
    else if Less(k, s[0].id) then [s[0]] + After(s[1..], k)
    else After(s[1..], k)
  }

  lemma {:induction false} AfterAll(s: seq<Snapshot>, k: Key)
    requires forall j :: 0 <= j < |s| ==> Less(k, s[j].id)
    ensures After(s, k) == s
  {
    if |s| > 0 {
      AfterAll(s[1..], k);
      assert s == [s[0]] + s[1..];
    }
  }

  /** Starting after a stored id resumes right behind that id. */
  lemma {:induction false} AfterSuffix(s: seq<Snapshot>, i: nat)
    requires Sorted(s) && i < |s|
    ensures After(s, s[i].id) == s[i + 1..]
    decreases i
  {
    var k := s[i].id;
    if i == 0 {
      LessIrreflexive(k);
      AfterAll(s[1..], k);
    } else {
      LessAsymmetric(s[0].id, k);
      AfterSuffix(s[1..], i - 1);
      assert s[1..][i - 1] == s[i];
      assert s[1..][i..] == s[i + 1..];
    }
  }

  /** The backend's answer to `order_by("__name__").limit(limit)`, with
      `start_after(after)` when `after` is given. */
  function RunQuery(s: Store, limit: nat, after: Option<Key>): seq<Snapshot> {
    var candidates := if after.Some? then After(s, after.value) else s;
    if |candidates| <= limit then candidates else candidates[..limit]
  }

  /** A range query is a window of the collection: it starts right behind
      the cursor and holds `limit` documents, or all that remain. */
  lemma QueryWindow(s: Store, limit: nat, after: Option<Key>, i: nat)
    requires Sorted(s) && i <= |s|
    requires after.None? ==> i == 0
    requires after.Some? ==> 0 < i && s[i - 1].id == after.value
    ensures RunQuery(s, limit, after) == s[i..i + Min(limit, |s| - i)]
  {
    if after.Some? {
      AfterSuffix(s, i - 1);
    }
  }

  predicate HasTitle(d: Snapshot, title: string) {
    "Title" in d.data && d.data["Title"] == Str(title)
  }

  /** `where("Title", "==", title).limit(1)`: the first match in id order. */
  function FirstWithTitle(s: seq<Snapshot>, title: string): (r: Option<Snapshot>)
    requires Sorted(s)
    ensures r.None? <==> forall j :: 0 <= j < |s| ==> !HasTitle(s[j], title)
    ensures r.Some? ==> r.value in s && HasTitle(r.value, title)
    ensures r.Some? ==> forall x :: x in s && HasTitle(x, title) ==> x == r.value || Less(r.value.id, x.id)
  {
    if |s| == 0 then None
    else if HasTitle(s[0], title) then Some(s[0])
    else
      var r := FirstWithTitle(s[1..], title);
      assert forall x :: x in s && x != s[0] ==> x in s[1..];
      r
  }
}

=== FILE: errors.dfy ===
/** The store client's error taxonomy, and the other exceptions that cross
    the model's layers.

    The taxonomy is a closed, single-inheritance class hierarchy rooted at
    `FirestoreBaseError`. Read, write and delete errors each derive from the
    root; `DocumentNotFoundError` derives from the read error and
    `DocumentAlreadyExistsError` from the write error. */
module Errors {
  import opened Results
  import Backend

  datatype ErrorKind =
    | FirestoreBase
    | DocumentRead
    | DocumentWrite
    | DocumentDelete
    | DocumentNotFound
    | DocumentAlreadyExists

  /** The direct base class of each kind; the root has none. */
  function Parent(k: ErrorKind): Option<ErrorKind> {
    match k
    case FirestoreBase => None
    case DocumentRead => Some(FirestoreBase)
    case DocumentWrite => Some(FirestoreBase)
    case DocumentDelete => Some(FirestoreBase)
    case DocumentNotFound => Some(DocumentRead)
    case DocumentAlreadyExists => Some(DocumentWrite)
  }

  /** Distance from the root; strictly decreases towards it. */
  function Depth(k: ErrorKind): nat {
    match k
    case FirestoreBase => 0
    case DocumentNotFound => 2
    case DocumentAlreadyExists => 2
    case _ => 1
  }

  /** `k` is `ancestor` or a subclass of it: Python's `issubclass`. */
  predicate IsA(k: ErrorKind, ancestor: ErrorKind)
    decreases Depth(k)
  {
    k == ancestor || (Parent(k).Some? && IsA(Parent(k).value, ancestor))
  }

  /** The method resolution order: `k`, its base, its base's base, ... */
  function Lineage(k: ErrorKind): (r: seq<ErrorKind>)
    ensures |r| == Depth(k) + 1
    ensures r[0] == k && r[|r| - 1] == FirestoreBase
    ensures forall a :: IsA(k, a) <==> a in r
    decreases Depth(k)
  {
    match Parent(k)
    case None => [k]
    case Some(p) => [k] + Lineage(p)
  }

  /** `IsA` is a partial order. */
  lemma IsAPartialOrder(a: ErrorKind, b: ErrorKind, c: ErrorKind)
    ensures IsA(a, a)
    ensures IsA(a, b) && IsA(b, c) ==> IsA(a, c)
    ensures IsA(a, b) && IsA(b, a) ==> a == b
  {
  }

  /** Inheritance is single: the ancestors of any kind form a chain. */
  lemma {:induction false} SingleInheritance(k: ErrorKind, a: ErrorKind, b: ErrorKind)
    requires IsA(k, a) && IsA(k, b)
    ensures IsA(a, b) || IsA(b, a)
  {
    var line := Lineage(k);
    assert a in line && b in line;
  }

  /** The shape of the hierarchy as the source declares it. */
  lemma Hierarchy()
    ensures IsA(DocumentNotFound, DocumentRead)
    ensures IsA(DocumentAlreadyExists, DocumentWrite)
    ensures forall k :: IsA(k, FirestoreBase)
    ensures !IsA(DocumentRead, DocumentWrite) && !IsA(DocumentWrite, DocumentRead)
    ensures !IsA(DocumentRead, DocumentDelete) && !IsA(DocumentDelete, DocumentRead)
    ensures !IsA(DocumentWrite, DocumentDelete) && !IsA(DocumentDelete, DocumentWrite)
    ensures !IsA(DocumentNotFound, DocumentWrite) && !IsA(DocumentNotFound, DocumentDelete)
    ensures !IsA(DocumentAlreadyExists, DocumentRead) && !IsA(DocumentAlreadyExists, DocumentDelete)
  {
  }

  /** An exception that is not a member of the taxonomy. */
  datatype Fault =
    | BackendFailure(call: Backend.Call)  // a backend exception re-raised unwrapped
    | KeyError(field: string)             // `dict.pop` of a missing field
    | PathTypeError                       // a document path that is not a string
    | ValueError                          // `int()` of a malformed string
    | ValidationError(field: string)      // a model field missing or not a string
    | SigningError                        // the token encoder raised

  /** Anything the model's operations can raise. */
  datatype Error = Firestore(kind: ErrorKind) | Raw(fault: Fault)

  /** `except K:` catches `e`. */
  predicate Catches(k: ErrorKind, e: Error) {
    e.Firestore? && IsA(e.kind, k)
  }
}

=== FILE: firestore.dfy ===
/** The document store client (`FirestoreClient`) over one collection.

    Every operation takes the collection as it stands and an oracle saying
    which backend requests fail; operations that write return the collection
    afterwards together with their outcome. */
module Firestore {
  import opened Results
  import opened KeyOrder
  import opened Backend
  import opened Errors

  /** The collection after an operation, and what the operation returned or raised. */
  datatype Step<T> = Step(store: Store, outcome: Result<T, Error>)

  /** One explicit page and the token that resumes after it. */
  datatype Page = Page(docs: seq<Snapshot>, nextToken: Option<Key>)

  /** What a full scan yielded before it stopped, and how many pages it fetched. */
  datatype Scan = Scan(yielded: seq<Snapshot>, error: Option<Error>, fetches: nat)

  /** An empty key makes the joined path name the collection itself, which
      the client library rejects as a document path. */
  predicate NamesDocument(key: Key) {
    key != ""
  }

  /** `get_document`: the snapshot for `key`, or a read error. */
  function GetDocument(s: Store, fails: Oracle, key: Key): (r: Result<Snapshot, Error>)
    ensures r.Ok? <==> NamesDocument(key) && !fails(Read(key)) && key in Contents(s)
    ensures r.Ok? ==> r.value == Snapshot(key, Contents(s)[key])
    ensures r == Err(Firestore(DocumentNotFound))
            <==> NamesDocument(key) && !fails(Read(key)) && key !in Contents(s)
    ensures r.Err? ==> Catches(DocumentRead, r.error)
  {
    if !NamesDocument(key) || fails(Read(key)) then Err(Firestore(DocumentRead))
    else match Find(s, key)
      case None => Err(Firestore(DocumentNotFound))
      case Some(doc) => Ok(doc)
  }

  /** `get_document_by_title`: the first document whose `Title` equals
      `title`, or `None`; a backend failure propagates as raised. */
  function GetDocumentByTitle(s: Store, fails: Oracle, title: string): (r: Result<Option<Snapshot>, Error>)
    requires Valid(s)
    ensures r.Err? <==> fails(TitleQuery(title))
    ensures r.Err? ==> r.error == Raw(BackendFailure(TitleQuery(title)))
    ensures r.Ok? ==> (r.value.None? <==> forall j :: 0 <= j < |s| ==> !HasTitle(s[j], title))
    ensures r.Ok? && r.value.Some? ==>
              var d := r.value.value;
              HasTitle(d, title) && d.id in Contents(s) && Contents(s)[d.id] == d.data
  {
    if fails(TitleQuery(title)) then Err(Raw(BackendFailure(TitleQuery(title))))
    else
      var hit := FirstWithTitle(s, title);
      if hit.Some? then
        var i :| 0 <= i < |s| && s[i] == hit.value;
        SortedIndexOf(s, i);
        Ok(hit)
      else Ok(hit)
  }

  /** `create_document`: an atomic create-if-absent followed by a read-back. */
  function CreateDocument(s: Store, fails: Oracle, key: Key, payload: Doc): (r: Step<Snapshot>)
    requires Valid(s)
    ensures Valid(r.store)
    ensures r.outcome == Err(Firestore(DocumentAlreadyExists))
            <==> NamesDocument(key) && !fails(Create(key)) && key in Contents(s)
    ensures r.outcome.Err? ==> Catches(DocumentWrite, r.outcome.error)
    ensures NamesDocument(key) && !fails(Create(key)) && key !in Contents(s) ==>
              && Contents(r.store) == Contents(s)[key := payload]
              && (r.outcome.Ok? <==> !fails(Read(key)))
    ensures !(NamesDocument(key) && !fails(Create(key)) && key !in Contents(s)) ==>
              r.store == s && r.outcome.Err?
    ensures r.outcome.Ok? ==> r.outcome.value == Snapshot(key, payload)
  {
    if !NamesDocument(key) || fails(Create(key)) then Step(s, Err(Firestore(DocumentWrite)))
    else if Find(s, key).Some? then Step(s, Err(Firestore(DocumentAlreadyExists)))
    else
      var e := Snapshot(key, payload);
      InsertSorted(s, e);
      var s' := Insert(s, e);
      assert Valid(s') by {
        forall i | 0 <= i < |s'| ensures s'[i].id != "" {
          assert s'[i] in s';
        }
      }
      if fails(Read(key)) then Step(s', Err(Firestore(DocumentWrite)))
      else Step(s', Ok(Find(s', key).value))
  }

  /** `delete_document`: checks existence through `GetDocument`, then deletes. */
  function DeleteDocument(s: Store, fails: Oracle, key: Key): (r: Step<()>)
    requires Valid(s)
    ensures Valid(r.store)
    ensures r.outcome.Ok? <==> GetDocument(s, fails, key).Ok? && !fails(Delete(key))
    ensures r.outcome.Ok? ==> Contents(r.store) == Contents(s) - {key} && |r.store| == |s| - 1
    ensures r.outcome.Err? ==> r.store == s
    ensures GetDocument(s, fails, key).Err? ==> r.outcome == Err(GetDocument(s, fails, key).error)
    ensures GetDocument(s, fails, key).Ok? && fails(Delete(key)) ==>
              r.outcome == Err(Firestore(DocumentDelete))
  {
    match GetDocument(s, fails, key)
    case Err(e) => Step(s, Err(e))
    case Ok(_) =>
      if fails(Delete(key)) then Step(s, Err(Firestore(DocumentDelete)))
      else
        RemoveMembers(s, key);
        RemoveContents(s, key);
        RemoveSorted(s, key);
        var s' := Remove(s, key);
        assert Valid(s') by {
          forall i | 0 <= i < |s'| ensures s'[i].id != "" {
            assert s'[i] in s';
          }
        }
        assert |s'| == |s| - 1 by {
          assert |Contents(s')| == |Contents(s)| - 1;
          ContentsSize(s);
          ContentsSize(s');
        }
        Step(s', Ok(()))
  }

  /** In a sorted collection there is one map entry per snapshot. */
  lemma {:induction false} ContentsSize(s: Store)
    requires Sorted(s)
    ensures |Contents(s)| == |s|
  {
    if |s| > 0 {
      ContentsSize(s[1..]);
      if s[0].id in Contents(s[1..]) {
        var i := IndexOf(s[1..], s[0].id);
        LessIrreflexive(s[0].id);
      }
    }
  }

  /** `is_collection_empty`: a one-document probe; a failure propagates as raised. */
  function IsCollectionEmpty(s: Store, fails: Oracle): (r: Result<bool, Error>)
    ensures r.Err? <==> fails(Probe)
    ensures r.Err? ==> r.error == Raw(BackendFailure(Probe))
    ensures r.Ok? ==> (r.value <==> Contents(s) == map[])
  {
    if fails(Probe) then Err(Raw(BackendFailure(Probe)))
    else
      EmptyContents(s);
      Ok(|RunQuery(s, 1, None)| == 0)
  }

  /** `start_after` is honoured only when it is truthy and names a stored document. */
  predicate Honoured(s: Store, startAfter: Option<Key>) {
    startAfter.Some? && startAfter.value != "" && startAfter.value in Contents(s)
  }

  /** A truthy `start_after` costs a read of the named document. */
  predicate CursorRead(startAfter: Option<Key>) {
    startAfter.Some? && startAfter.value != ""
  }

  /** Position in the collection where a page with this `start_after` begins. */
  function StartIndex(s: Store, startAfter: Option<Key>): (i: nat)
    ensures i <= |s|
  {
    if Honoured(s, startAfter) then IndexOf(s, startAfter.value) + 1 else 0
  }

  /** The cursor the range query is issued with. */
  function EffectiveCursor(s: Store, startAfter: Option<Key>): Option<Key> {
    if Honoured(s, startAfter) then startAfter else None
  }

  /** The first half of `get_paginated_documents`: a truthy `start_after`
      is looked up, and the range query starts after it only when it names
      a stored document. The lookup's failure propagates. */
  function ResolveCursor(s: Store, fails: Oracle, startAfter: Option<Key>): (r: Result<Option<Key>, Error>)
    ensures r.Err? <==> CursorRead(startAfter) && fails(Read(startAfter.value))
    ensures r.Err? ==> r.error == Raw(BackendFailure(Read(startAfter.value)))
    ensures r.Ok? ==> r.value == EffectiveCursor(s, startAfter)
  {
    if !CursorRead(startAfter) then Ok(None)
    else if fails(Read(startAfter.value)) then Err(Raw(BackendFailure(Read(startAfter.value))))
    else if Find(s, startAfter.value).Some? then Ok(startAfter)
    else Ok(None)
  }

  /** `get_paginated_documents`: at most `pageSize` documents in id order
      strictly after the cursor, and the id of the last one as next token. */
  function Paginate(s: Store, fails: Oracle, pageSize: nat, startAfter: Option<Key>): (r: Result<Page, Error>)
    requires Valid(s) && pageSize >= 1
    ensures r.Err? <==> (CursorRead(startAfter) && fails(Read(startAfter.value)))
                        || (!(CursorRead(startAfter) && fails(Read(startAfter.value)))
                            && fails(RangeQuery(pageSize, EffectiveCursor(s, startAfter))))
    ensures r.Err? ==> r.error.Raw? && r.error.fault.BackendFailure?
    ensures r.Err? ==> r.error == (if CursorRead(startAfter) && fails(Read(startAfter.value))
                                   then Raw(BackendFailure(Read(startAfter.value)))
                                   else Raw(BackendFailure(RangeQuery(pageSize, EffectiveCursor(s, startAfter)))))
    ensures r.Ok? ==>
              var i := StartIndex(s, startAfter);
              r.value.docs == s[i..i + Min(pageSize, |s| - i)]
    ensures r.Ok? ==> |r.value.docs| <= pageSize
    ensures r.Ok? ==> (r.value.nextToken.None? <==> |r.value.docs| == 0)
    ensures r.Ok? && |r.value.docs| > 0 ==>
              r.value.nextToken == Some(r.value.docs[|r.value.docs| - 1].id)
  {
    var cursor :- ResolveCursor(s, fails, startAfter);
    if fails(RangeQuery(pageSize, cursor)) then Err(Raw(BackendFailure(RangeQuery(pageSize, cursor))))
    else
      QueryWindow(s, pageSize, cursor, StartIndex(s, startAfter));
      var docs := RunQuery(s, pageSize, cursor);
      Ok(Page(docs, if |docs| > 0 then Some(docs[|docs| - 1].id) else None))
  }

  /** A missing, empty or unknown `start_after` restarts from the beginning. */
  lemma UnknownCursorRestarts(s: Store, fails: Oracle, pageSize: nat, startAfter: Option<Key>)
    requires Valid(s) && pageSize >= 1
    requires !Honoured(s, startAfter)
    requires !(CursorRead(startAfter) && fails(Read(startAfter.value)))
    ensures Paginate(s, fails, pageSize, startAfter) == Paginate(s, fails, pageSize, None)
  {
  }

  /** `get_all_documents`: the internally paginated full scan, consumed to the end.
      It fetches pages of `pageSize` and stops after the first short page;
      a failed fetch ends the scan with the backend's error. */
  method GetAllDocuments(s: Store, fails: Oracle, pageSize: nat) returns (r: Scan)
    requires Valid(s) && pageSize >= 1
    ensures |r.yielded| <= |s| && r.yielded == s[..|r.yielded|]
    ensures r.error.None? ==> r.yielded == s && r.fetches == |s| / pageSize + 1
    ensures r.error.Some? ==>
              && |r.yielded| == (r.fetches - 1) * pageSize
              && r.error.value == Raw(BackendFailure(RangeQuery(pageSize, ScanCursor(s, |r.yielded|))))
              && fails(RangeQuery(pageSize, ScanCursor(s, |r.yielded|)))
    ensures forall k :: 0 <= k < r.fetches - (if r.error.Some? then 1 else 0) ==>
              k * pageSize <= |s| && !fails(RangeQuery(pageSize, ScanCursor(s, k * pageSize)))
  {
    var yielded: seq<Snapshot> := [];
    var cursor: Option<Key> := None;
    var fetches := 0;
    var error: Option<Error> := None;
    var done := false;
    while !done
      invariant |yielded| <= |s| && yielded == s[..|yielded|]
      invariant !done ==> error.None? && |yielded| == fetches * pageSize
      invariant !done ==> cursor == ScanCursor(s, |yielded|)
      invariant done && error.None? ==> yielded == s && fetches == |s| / pageSize + 1
      invariant done && error.Some? ==>
                  && |yielded| == (fetches - 1) * pageSize
                  && error.value == Raw(BackendFailure(RangeQuery(pageSize, ScanCursor(s, |yielded|))))
                  && fails(RangeQuery(pageSize, ScanCursor(s, |yielded|)))
      invariant forall k :: 0 <= k < fetches - (if error.Some? then 1 else 0) ==>
                  k * pageSize <= |s| && !fails(RangeQuery(pageSize, ScanCursor(s, k * pageSize)))
      decreases |s| - |yielded| + (if done then 0 else 1)
    {
      ghost var (f0, y0, c0) := (fetches, yielded, cursor);
      yielded, cursor, error, done := ScanStep(s, fails, pageSize, yielded, cursor, fetches);
      if error.None? {
        assert f0 * pageSize == |y0| <= |s|;
        assert c0 == ScanCursor(s, f0 * pageSize);
      }
      fetches := fetches + 1;
    }
    r := Scan(yielded, error, fetches);
  }

  /** The cursor the scan holds after yielding the first `n` documents:
      the last of them, or none at the start. */
  function ScanCursor(s: Store, n: nat): Option<Key>
    requires n <= |s|
  {
    if n == 0 then None else Some(s[n - 1].id)
  }

  /** One fetch of the scan after `fetches` full pages: a failed query ends
      the scan with the backend's error; a short page ends it with every
      document yielded; a full page extends the documents yielded and moves
      the cursor to the last of them. */
  method ScanStep(s: Store, fails: Oracle, pageSize: nat, yielded: seq<Snapshot>, cursor: Option<Key>, fetches: nat)
    returns (yielded': seq<Snapshot>, cursor': Option<Key>, error: Option<Error>, done: bool)
    requires Valid(s) && pageSize >= 1
    requires |yielded| <= |s| && yielded == s[..|yielded|] && |yielded| == fetches * pageSize
    requires cursor == ScanCursor(s, |yielded|)
    ensures |yielded'| <= |s| && yielded' == s[..|yielded'|]
    ensures error.Some? <==> fails(RangeQuery(pageSize, cursor))
    ensures !done ==> && error.None? && |yielded'| == (fetches + 1) * pageSize && |yielded| < |yielded'|
                      && cursor' == ScanCursor(s, |yielded'|)
    ensures done && error.None? ==> yielded' == s && fetches + 1 == |s| / pageSize + 1
    ensures error.Some? ==> done && yielded' == yielded && error.value == Raw(BackendFailure(RangeQuery(pageSize, cursor)))
  {
    var call := RangeQuery(pageSize, cursor);
    if fails(call) {
      return yielded, cursor, Some(Raw(BackendFailure(call))), true;
    }
    var i := |yielded|;
    var docs := FetchPage(s, pageSize, cursor, i);
    if |docs| < pageSize {
      LastPage(s, pageSize, yielded, docs, fetches + 1);
      return yielded + docs, cursor, None, true;
    }
    FullPage(s, pageSize, yielded, docs, fetches);
    yielded' := yielded + docs;
    cursor' := Some(docs[|docs| - 1].id);
    error := None;
    done := false;
  }

  /** One page of the scan, taken right behind the `i` documents already yielded. */
  function FetchPage(s: Store, pageSize: nat, cursor: Option<Key>, i: nat): (docs: seq<Snapshot>)
    requires Sorted(s) && i <= |s| && pageSize >= 1
    requires cursor == ScanCursor(s, i)
    ensures |docs| <= pageSize && i + |docs| <= |s|
    ensures s[..i] + docs == s[..i + |docs|]
    ensures |docs| < pageSize ==> i + |docs| == |s|
    ensures |docs| > 0 ==> docs[|docs| - 1] == s[i + |docs| - 1]
  {
    QueryWindow(s, pageSize, cursor, i);
    var docs := RunQuery(s, pageSize, cursor);
    assert s[..i] + s[i..i + |docs|] == s[..i + |docs|];
    docs
  }

  /** A short page ends the scan: everything has been yielded, after one
      fetch per full page and one for the short page. */
  lemma LastPage(s: Store, pageSize: nat, prefix: seq<Snapshot>, docs: seq<Snapshot>, fetches: nat)
    requires pageSize >= 1 && fetches >= 1 && |docs| < pageSize
    requires |prefix| == (fetches - 1) * pageSize && |prefix| + |docs| == |s|
    requires prefix == s[..|prefix|] && s[..|prefix|] + docs == s[..|prefix| + |docs|]
    ensures prefix + docs == s && fetches == |s| / pageSize + 1
  {
    assert s[..|s|] == s;
    DivisionOfTail(fetches - 1, pageSize, |docs|);
  }

  /** A full page extends the yielded prefix by one page, and its last
      document becomes the cursor. */
  lemma FullPage(s: Store, pageSize: nat, yielded: seq<Snapshot>, docs: seq<Snapshot>, fetches: nat)
    requires pageSize >= 1 && |docs| == pageSize && |yielded| == fetches * pageSize
    requires |yielded| + |docs| <= |s| && yielded == s[..|yielded|]
    requires s[..|yielded|] + docs == s[..|yielded| + |docs|]
    requires docs[|docs| - 1] == s[|yielded| + |docs| - 1]
    ensures |yielded + docs| <= |s| && yielded + docs == s[..|yielded + docs|]
    ensures |yielded + docs| == (fetches + 1) * pageSize && |yielded| < |yielded + docs|
    ensures Some(docs[|docs| - 1].id) == ScanCursor(s, |yielded + docs|)
  {
    assert |yielded| + pageSize == (fetches + 1) * pageSize;
  }

  lemma MulAtLeast(a: int, d: int)
    requires a >= 1 && d >= 1
    ensures a * d >= d
  {
  }

  lemma DivisionOfTail(q: nat, d: nat, rest: nat)
    requires 0 <= rest < d
    ensures (q * d + rest) / d == q
  {
    var x := q * d + rest;
    var k := x / d;
    assert k * d + x % d == x;
    if k < q {
      MulAtLeast(q - k, d);
    } else if k > q {
      MulAtLeast(k - q, d);
    }
  }
}

=== FILE: key_order.dfy ===
/** Document ids and the order the backend lists them in.

    Firestore lists a collection ordered by `__name__`, i.e. by document id.
    The model fixes that order as lexicographic comparison of code points,
    which coincides with comparing the ids' UTF-8 encodings byte by byte. */
module KeyOrder {

  type Key = string

  /** `a` sorts strictly before `b`. */
  predicate Less(a: Key, b: Key)
    decreases |a|
  {
    if |a| == 0 then |b| > 0
    else if |b| == 0 then false
    else if a[0] != b[0] then a[0] < b[0]
    else Less(a[1..], b[1..])
  }

  lemma {:induction false} LessIrreflexive(a: Key)
    ensures !Less(a, a)
    decreases |a|
  {
    if |a| > 0 {
      LessIrreflexive(a[1..]);
    }
  }

  lemma {:induction false} LessTransitive(a: Key, b: Key, c: Key)
    requires Less(a, b) && Less(b, c)
    ensures Less(a, c)
    decreases |a|
  {
    if |a| > 0 && a[0] == b[0] && b[0] == c[0] {
      LessTransitive(a[1..], b[1..], c[1..]);
    }
  }

  /** Any two distinct ids are comparable: the order is total. */
  lemma {:induction false} LessTotal(a: Key, b: Key)
    requires a != b
    ensures Less(a, b) || Less(b, a)
    decreases |a|
  {
    if |a| > 0 && |b| > 0 && a[0] == b[0] {
      assert a == [a[0]] + a[1..];
      assert b == [b[0]] + b[1..];
      LessTotal(a[1..], b[1..]);
    }
  }

  lemma LessAsymmetric(a: Key, b: Key)
    requires Less(a, b)
    ensures !Less(b, a)
  {
    if Less(b, a) {
      LessTransitive(a, b, a);
      LessIrreflexive(a);
    }
  }
}

=== FILE: logging.dfy ===
/** Log calls as values. A service does not write anywhere: it returns the
    entries it would have logged, in order, next to its result. */
module Logging {
  import Backend

  /** The levels an `ILogger` accepts, with the source's names. */
  datatype LogLevel = DEBUG | INFO | WARNING | ERROR | CRITICAL

  /** What an f-string message interpolates after its fixed text. */
  datatype Subject =
    | NoSubject                // the message is the fixed text alone
    | Name(text: string)       // a key, title or email
    | Record(doc: Backend.Doc) // a dictionary, rendered by Python's `repr`

  /** One call `logger.log(level, template + subject)`. */
  datatype LogEntry = LogEntry(level: LogLevel, template: string, subject: Subject)

  /** A result that cannot fail, with the entries logged while computing it. */
  datatype Logged<T> = Logged(value: T, logs: seq<LogEntry>)

  /** The entries of a sequence that are at `level`. */
  function AtLevel(logs: seq<LogEntry>, level: LogLevel): (r: seq<LogEntry>)
    ensures |r| <= |logs|
    ensures forall e :: e in r <==> e in logs && e.level == level
  {
    if |logs| == 0 then []
    else (if logs[0].level == level then [logs[0]] else []) + AtLevel(logs[1..], level)
  }
}

=== FILE: movie_repository.dfy ===
/** `MovieRepository`: movies kept in the store under their IMDb id. Every
    operation goes to the store client and lets its errors through. */
module MovieRepository {
  import opened Results
  import opened KeyOrder
  import opened Backend
  import opened Errors
  import opened Firestore

  /** A movie record, built from a stored document's fields. */
  datatype Movie = Movie(fields: Doc)

  /** One page of movies and the token that resumes after it. */
  datatype MoviePage = MoviePage(movies: seq<Movie>, nextToken: Option<Key>)

  /** `get_all_movies`'s default `page_size`. */
  const DefaultPageSize: nat := 10

  /** The field a movie document is keyed by. */
  const IdField: string := "imdbID"

  /** One movie per document, in the same order. */
  function ToMovies(docs: seq<Snapshot>): (r: seq<Movie>)
    ensures |r| == |docs|
    ensures forall i :: 0 <= i < |docs| ==> r[i] == Movie(docs[i].data)
  {
    seq(|docs|, i requires 0 <= i < |docs| => Movie(docs[i].data))
  }

  /** `get_all_movies`: the page `get_paginated_documents` returns for the
      same arguments, one movie per document in the same order, and the
      page's token unchanged; a failure of that call propagates. */
  function GetAllMovies(s: Store, fails: Oracle, pageSize: nat, startAfter: Option<Key>)
    : (r: Result<MoviePage, Error>)
    requires Valid(s) && pageSize >= 1
    ensures var p := Paginate(s, fails, pageSize, startAfter);
            && (r.Err? <==> p.Err?)
            && (r.Err? ==> r.error == p.error)
            && (r.Ok? ==>
                  && |r.value.movies| == |p.value.docs|
                  && (forall k :: 0 <= k < |r.value.movies| ==> r.value.movies[k] == Movie(p.value.docs[k].data))
                  && r.value.nextToken == p.value.nextToken)
  {
    var page :- Paginate(s, fails, pageSize, startAfter);
    Ok(MoviePage(ToMovies(page.docs), page.nextToken))
  }

  /** Movies made from a window of the collection are those of the window's documents. */
  lemma WindowOfMovies(s: seq<Snapshot>, i: nat, m: nat, docs: seq<Snapshot>, movies: seq<Movie>)
    requires i + m <= |s| && docs == s[i..i + m] && |movies| == |docs|
    requires forall k :: 0 <= k < |docs| ==> movies[k] == Movie(docs[k].data)
    ensures |movies| == m
    ensures forall k :: 0 <= k < m ==> movies[k] == Movie(s[i + k].data)
  {
    forall k | 0 <= k < m ensures movies[k] == Movie(s[i + k].data) {
      assert docs[k] == s[i + k];
    }
  }

  /** `get_movie_by_id`: the stored movie, or the client's read error. */
  function GetMovieById(s: Store, fails: Oracle, movieId: Key): (r: Result<Snapshot, Error>)
    ensures r.Ok? <==> NamesDocument(movieId) && !fails(Read(movieId)) && movieId in Contents(s)
    ensures r.Ok? ==> r.value.id == movieId && r.value.data == Contents(s)[movieId]
    ensures r == Err(Firestore(DocumentNotFound))
            <==> NamesDocument(movieId) && !fails(Read(movieId)) && movieId !in Contents(s)
    ensures r.Err? ==> Catches(DocumentRead, r.error)
  {
    GetDocument(s, fails, movieId)
  }

  /** `get_movie_by_title`: the client's title lookup, `None` included. */
  function GetMovieByTitle(s: Store, fails: Oracle, title: string): (r: Result<Option<Snapshot>, Error>)
    requires Valid(s)
    ensures r.Err? <==> fails(TitleQuery(title))
    ensures r.Err? ==> r.error == Raw(BackendFailure(TitleQuery(title)))
    ensures r.Ok? ==> (r.value.None? <==> forall j :: 0 <= j < |s| ==> !HasTitle(s[j], title))
    ensures r.Ok? && r.value.Some? ==> HasTitle(r.value.value, title) && r.value.value in s
  {
    var r := GetDocumentByTitle(s, fails, title);
    if r.Ok? && r.value.Some? then
      var d := r.value.value;
      var j := IndexOf(s, d.id);
      assert s[j] == d;
      r
    else r
  }

  /** `create_movie`: stores the payload under `document.get("imdbID")`.
      Building the document path from a missing or non-string id raises a
      `TypeError` before the client's `try`, so nothing is written. */
  function CreateMovie(s: Store, fails: Oracle, document: Doc): (r: Step<Snapshot>)
    requires Valid(s)
    ensures Valid(r.store)
    ensures !(IdField in document && document[IdField].Str?) ==> r == Step(s, Err(Raw(PathTypeError)))
    ensures IdField in document && document[IdField].Str? ==>
              var key := document[IdField].s;
              && (r.outcome.Ok? ==> r.outcome.value == Snapshot(key, document))
              && (r.outcome == Err(Firestore(DocumentAlreadyExists))
                  <==> NamesDocument(key) && !fails(Create(key)) && key in Contents(s))
              && (r.outcome.Err? ==> Catches(DocumentWrite, r.outcome.error))
              && (NamesDocument(key) && !fails(Create(key)) && key !in Contents(s) ==>
                    && Contents(r.store) == Contents(s)[key := document]
                    && (r.outcome.Ok? <==> !fails(Read(key))))
              && (!(NamesDocument(key) && !fails(Create(key)) && key !in Contents(s)) ==>
                    r.store == s && r.outcome.Err?)
  {
    match Field(document, IdField)
    case Some(Str(key)) => CreateDocument(s, fails, key, document)
    case _ => Step(s, Err(Raw(PathTypeError)))
  }

  /** `delete_movie`: the client's existence-checked delete. */
  function DeleteMovie(s: Store, fails: Oracle, movieId: Key): (r: Step<()>)
    requires Valid(s)
    ensures Valid(r.store)
    ensures r.outcome.Ok? <==> GetMovieById(s, fails, movieId).Ok? && !fails(Delete(movieId))
    ensures r.outcome.Ok? ==> Contents(r.store) == Contents(s) - {movieId}
    ensures r.outcome.Err? ==> r.store == s
    ensures GetMovieById(s, fails, movieId).Err? ==> r.outcome == Err(GetMovieById(s, fails, movieId).error)
    ensures GetMovieById(s, fails, movieId).Ok? && fails(Delete(movieId)) ==>
              r.outcome == Err(Firestore(DocumentDelete))
  {
    DeleteDocument(s, fails, movieId)
  }

  /** `check_empty_collection`: the client's emptiness probe. */
  function CheckEmptyCollection(s: Store, fails: Oracle): (r: Result<bool, Error>)
    ensures r.Err? <==> fails(Probe)
    ensures r.Err? ==> r.error == Raw(BackendFailure(Probe))
    ensures r.Ok? ==> (r.value <==> |s| == 0)
  {
    EmptyContents(s);
    IsCollectionEmpty(s, fails)
  }

  /** A movie that was created can be read back by its IMDb id. */
  lemma CreateThenGet(s: Store, fails: Oracle, document: Doc)
    requires Valid(s)
    requires CreateMovie(s, fails, document).outcome.Ok?
    ensures IdField in document && document[IdField].Str?
    ensures var key := document[IdField].s;
            GetMovieById(CreateMovie(s, fails, document).store, fails, key) == Ok(Snapshot(key, document))
  {
  }

  /** A movie that was deleted is no longer found. */
  lemma DeleteThenGet(s: Store, fails: Oracle, movieId: Key)
    requires Valid(s)
    requires DeleteMovie(s, fails, movieId).outcome.Ok?
    ensures GetMovieById(DeleteMovie(s, fails, movieId).store, fails, movieId) == Err(Firestore(DocumentNotFound))
  {
  }
}

=== FILE: movie_service.dfy ===
/** `MovieService`: logs each request, turns any repository exception into
    `None` (or, for delete, into nothing), and announces an empty collection
    on the message bus. */
module MovieService {
  import opened Results
  import opened KeyOrder
  import opened Backend
  import opened Errors
  import opened Firestore
  import opened Logging
  import Repo = MovieRepository

  /** Like `Logging.Logged`, for an operation that may change the collection. */
  datatype Effect<T> = Effect(store: Store, value: T, logs: seq<LogEntry>)

  /** The one message `notify_empty_collection` publishes. */
  const EmptyNotice: Doc := map["Status" := Str("Empty")]

  /** `get_all_movies`: the repository's page for the same arguments; it
      catches nothing. */
  function GetAllMovies(s: Store, fails: Oracle, pageSize: nat, startAfter: Option<Key>)
    : (r: Result<Repo.MoviePage, Error>)
    requires Valid(s) && pageSize >= 1
    ensures var p := Paginate(s, fails, pageSize, startAfter);
            && (r.Err? <==> p.Err?)
            && (r.Err? ==> r.error == p.error && r.error.Raw? && r.error.fault.BackendFailure?)
            && (r.Ok? ==>
                  && |r.value.movies| == |p.value.docs| <= pageSize
                  && (forall k :: 0 <= k < |r.value.movies| ==> r.value.movies[k] == Repo.Movie(p.value.docs[k].data))
                  && r.value.nextToken == p.value.nextToken)
  {
    Repo.GetAllMovies(s, fails, pageSize, startAfter)
  }

  /** Called without arguments, `get_all_movies` asks for the first ten
      documents. */
  lemma DefaultArguments(s: Store, fails: Oracle)
    requires Valid(s)
    ensures GetAllMovies(s, fails, Repo.DefaultPageSize, None).Ok? ==>
              var page := GetAllMovies(s, fails, Repo.DefaultPageSize, None).value;
              && |page.movies| == Min(10, |s|)
              && forall k :: 0 <= k < |page.movies| ==> page.movies[k] == Repo.Movie(s[k].data)
  {
    var r := GetAllMovies(s, fails, Repo.DefaultPageSize, None);
    if r.Ok? {
      var docs := Paginate(s, fails, Repo.DefaultPageSize, None).value.docs;
      Repo.WindowOfMovies(s, 0, Min(10, |s|), docs, r.value.movies);
    }
  }

  /** `get_movie_by_id`: the stored movie, or `None` with an ERROR entry
      after the INFO entry when the repository raises. */
  function GetMovieById(s: Store, fails: Oracle, movieId: Key): (r: Logged<Option<Snapshot>>)
    ensures |r.logs| >= 1 && r.logs[0] == LogEntry(INFO, "Getting movie by id: ", Name(movieId))
    ensures r.value.Some? <==> NamesDocument(movieId) && !fails(Read(movieId)) && movieId in Contents(s)
    ensures r.value.Some? ==> r.value.value == Snapshot(movieId, Contents(s)[movieId]) && |r.logs| == 1
    ensures r.value.None? ==> r.logs == [r.logs[0], LogEntry(ERROR, "Failed to get movie by id: ", Name(movieId))]
  {
    var info := LogEntry(INFO, "Getting movie by id: ", Name(movieId));
    match Repo.GetMovieById(s, fails, movieId)
    case Ok(doc) => Logged(Some(doc), [info])
    case Err(_) => Logged(None, [info, LogEntry(ERROR, "Failed to get movie by id: ", Name(movieId))])
  }

  /** `get_movie_by_title`: the first match, `None` when nothing matches,
      and `None` with an ERROR entry when the lookup raises. */
  function GetMovieByTitle(s: Store, fails: Oracle, title: string): (r: Logged<Option<Snapshot>>)
    requires Valid(s)
    ensures |r.logs| >= 1 && r.logs[0] == LogEntry(INFO, "Getting movie by title: ", Name(title))
    ensures |r.logs| == 2 <==> fails(TitleQuery(title))
    ensures |r.logs| == 2 ==> r.logs[1] == LogEntry(ERROR, "Failed to get movie by title: ", Name(title))
    ensures r.value.None? <==> fails(TitleQuery(title)) || forall j :: 0 <= j < |s| ==> !HasTitle(s[j], title)
    ensures r.value.Some? ==> HasTitle(r.value.value, title) && r.value.value in s
  {
    var info := LogEntry(INFO, "Getting movie by title: ", Name(title));
    match Repo.GetMovieByTitle(s, fails, title)
    case Ok(hit) => Logged(hit, [info])
    case Err(_) => Logged(None, [info, LogEntry(ERROR, "Failed to get movie by title: ", Name(title))])
  }

  /** `create_movie`: the created movie, or `None` with an ERROR entry
      naming the payload. The collection is whatever the repository left,
      which after a failed read-back includes the new document. */
  function CreateMovie(s: Store, fails: Oracle, movieData: Doc): (r: Effect<Option<Snapshot>>)
    requires Valid(s)
    ensures Valid(r.store) && r.store == Repo.CreateMovie(s, fails, movieData).store
    ensures |r.logs| >= 1 && r.logs[0] == LogEntry(INFO, "Creating new movie entry", NoSubject)
    ensures r.value.Some? <==> Repo.CreateMovie(s, fails, movieData).outcome.Ok?
    ensures r.value.Some? ==> r.value.value.data == movieData && |r.logs| == 1
    ensures r.value.Some? ==> r.value.value == Repo.CreateMovie(s, fails, movieData).outcome.value
    ensures r.value.Some? ==> Field(movieData, Repo.IdField) == Some(Str(r.value.value.id))
    ensures r.value.None? ==> r.logs == [r.logs[0], LogEntry(ERROR, "Failed to create movie: ", Record(movieData))]
  {
    var info := LogEntry(INFO, "Creating new movie entry", NoSubject);
    var step := Repo.CreateMovie(s, fails, movieData);
    match step.outcome
    case Ok(doc) => Effect(step.store, Some(doc), [info])
    case Err(_) => Effect(step.store, None, [info, LogEntry(ERROR, "Failed to create movie: ", Record(movieData))])
  }

  /** `delete_movie`: never raises. Either the movie is gone and only the
      INFO entry is logged, or nothing changed and an ERROR entry follows. */
  function DeleteMovie(s: Store, fails: Oracle, movieId: Key): (r: Effect<()>)
    requires Valid(s)
    ensures Valid(r.store)
    ensures |r.logs| >= 1 && r.logs[0] == LogEntry(INFO, "Deleting movie: ", Name(movieId))
    ensures |r.logs| == 1
            <==> NamesDocument(movieId) && !fails(Read(movieId)) && movieId in Contents(s) && !fails(Delete(movieId))
    ensures |r.logs| == 1 ==> Contents(r.store) == Contents(s) - {movieId}
    ensures |r.logs| != 1 ==>
              r.store == s && r.logs == [r.logs[0], LogEntry(ERROR, "Failed to delete movie: ", Name(movieId))]
  {
    var info := LogEntry(INFO, "Deleting movie: ", Name(movieId));
    var step := Repo.DeleteMovie(s, fails, movieId);
    match step.outcome
    case Ok(_) => Effect(step.store, (), [info])
    case Err(_) => Effect(step.store, (), [info, LogEntry(ERROR, "Failed to delete movie: ", Name(movieId))])
  }

  /** `notify_empty_collection`: the messages published. The emptiness
      check is not guarded, so its failure propagates. */
  function NotifyEmptyCollection(s: Store, fails: Oracle): (r: Result<seq<Doc>, Error>)
    ensures r.Err? <==> fails(Probe)
    ensures r.Err? ==> r.error == Raw(BackendFailure(Probe))
    ensures r.Ok? ==> (r.value == [EmptyNotice] <==> |s| == 0)
    ensures r.Ok? ==> (r.value == [] <==> |s| > 0)
  {
    var empty :- Repo.CheckEmptyCollection(s, fails);
    if empty then Ok([EmptyNotice]) else Ok([])
  }

  /** Whatever the backend does, the service's own log calls in a read or
      delete give its INFO entry first and at most one ERROR entry after
      it. The client's ERROR entry through the shared logger is not
      modelled. */
  lemma ErrorsAreLoggedOnce(s: Store, fails: Oracle, key: Key)
    requires Valid(s)
    ensures |AtLevel(GetMovieById(s, fails, key).logs, ERROR)| <= 1
    ensures |AtLevel(GetMovieByTitle(s, fails, key).logs, ERROR)| <= 1
    ensures |AtLevel(DeleteMovie(s, fails, key).logs, ERROR)| <= 1
  {
    var a := GetMovieById(s, fails, key).logs;
    var b := GetMovieByTitle(s, fails, key).logs;
    var c := DeleteMovie(s, fails, key).logs;
    assert |AtLevel(a, ERROR)| <= 1 by {
      assert a[1..] == [] || a[1..] == [a[1]];
    }
    assert |AtLevel(b, ERROR)| <= 1 by {
      assert b[1..] == [] || b[1..] == [b[1]];
    }
    assert |AtLevel(c, ERROR)| <= 1 by {
      assert c[1..] == [] || c[1..] == [c[1]];
    }
  }
}

=== FILE: paging.dfy ===
/** Following `get_paginated_documents` tokens from the start until a page
    comes back without one. The token is the last id of any non-empty page;
    it is not based on page size. So the walk ends with one extra request
    that returns an empty page. */
module Paging {
  import opened Results
  import opened KeyOrder
  import opened Backend
  import opened Firestore

  /** A backend on which no request fails. */
  function NoFaults(c: Call): bool {
    false
  }

  /** On a backend that never fails, a page is the window of the collection
      behind the token's position, and its token is its last id. */
  lemma PageWindow(s: Store, pageSize: nat, token: Option<Key>)
    requires Valid(s) && pageSize >= 1
    ensures var i := StartIndex(s, token);
            var m := Min(pageSize, |s| - i);
            Paginate(s, NoFaults, pageSize, token)
              == Ok(Page(s[i..i + m], if m == 0 then None else Some(s[i + m - 1].id)))
  {
  }

  /** A stored id used as cursor resumes right behind that document. */
  lemma StartBehind(s: Store, j: nat)
    requires Valid(s) && j < |s|
    ensures StartIndex(s, Some(s[j].id)) == j + 1
  {
    SortedIndexOf(s, j);
  }

  /** The documents of a run of pages, in order. */
  function Concat(pages: seq<Page>): seq<Snapshot> {
    if |pages| == 0 then [] else pages[0].docs + Concat(pages[1..])
  }

  /** Number of non-empty pages of `pageSize` that `remaining` documents fill. */
  function PagesFor(remaining: nat, pageSize: nat): nat
    requires pageSize >= 1
  {
    if remaining == 0 then 0 else 1 + PagesFor(remaining - Min(pageSize, remaining), pageSize)
  }

  /** Reading a full window of `m` documents at `pos` uses up one page. */
  lemma PagesForStep(left: nat, m: nat, rest: nat, pageSize: nat)
    requires pageSize >= 1 && m > 0 && m == Min(pageSize, left) && rest == left - m
    ensures PagesFor(left, pageSize) == 1 + PagesFor(rest, pageSize)
  {
  }

  /** `PagesFor` is ceiling division. */
  lemma {:induction false} PagesForIsCeiling(remaining: nat, pageSize: nat)
    requires pageSize >= 1
    ensures PagesFor(remaining, pageSize) == (remaining + pageSize - 1) / pageSize
    decreases remaining
  {
    if remaining == 0 {
      DivisionOfTail(0, pageSize, pageSize - 1);
    } else if remaining >= pageSize {
      PagesForIsCeiling(remaining - pageSize, pageSize);
      DivisionStep(remaining - 1, pageSize);
    } else {
      DivisionOfTail(1, pageSize, remaining - 1);
    }
  }

  lemma PrefixJoin<T>(s: seq<T>, i: nat, j: nat)
    requires i <= j <= |s|
    ensures s[..i] + s[i..j] == s[..j]
  {
  }

  lemma {:induction false} ConcatSnoc(pages: seq<Page>, page: Page)
    ensures Concat(pages + [page]) == Concat(pages) + page.docs
  {
    if |pages| == 0 {
      assert pages + [page] == [page];
    } else {
      assert (pages + [page])[1..] == pages[1..] + [page];
      ConcatSnoc(pages[1..], page);
    }
  }

  /** A page a caller keeps following: it holds documents and its token is
      the id of its last document. */
  predicate Full(p: Page) {
    |p.docs| > 0 && p.nextToken == Some(p.docs[|p.docs| - 1].id)
  }

  /** `page` is what a token-following caller at position `pos` is handed:
      the next window of at most `pageSize` documents, with a token exactly
      when it is not empty, and that token resumes right behind it. */
  predicate Resumes(s: Store, pageSize: nat, pos: nat, page: Page) {
    && pos <= |s|
    && |page.docs| == Min(pageSize, |s| - pos)
    && page.docs == s[pos..pos + |page.docs|]
    && (page.nextToken.None? <==> |page.docs| == 0)
    && (|page.docs| > 0 ==> Full(page) && StartIndex(s, page.nextToken) == pos + |page.docs|)
  }

  /** The window of the collection at `pos`, tokened by its last id,
      resumes right behind itself. */
  lemma WindowResumes(s: Store, pageSize: nat, pos: nat, page: Page)
    requires Valid(s) && pos <= |s|
    requires var m := Min(pageSize, |s| - pos);
             page == Page(s[pos..pos + m], if m == 0 then None else Some(s[pos + m - 1].id))
    ensures Resumes(s, pageSize, pos, page)
  {
    var m := Min(pageSize, |s| - pos);
    if m > 0 {
      StartBehind(s, pos + m - 1);
    }
  }

  /** One request of a caller following tokens, on a backend that never
      fails: the answer is a page. */
  function NextPage(s: Store, pageSize: nat, token: Option<Key>): (page: Page)
    requires Valid(s) && pageSize >= 1
    ensures Paginate(s, NoFaults, pageSize, token) == Ok(page)
  {
    PageWindow(s, pageSize, token);
    Paginate(s, NoFaults, pageSize, token).value
  }

  /** That page is the next window of the collection, and its token resumes
      right behind it. */
  lemma NextPageResumes(s: Store, pageSize: nat, token: Option<Key>)
    requires Valid(s) && pageSize >= 1
    ensures Resumes(s, pageSize, StartIndex(s, token), NextPage(s, pageSize, token))
  {
    var page := NextPage(s, pageSize, token);
    PageWindow(s, pageSize, token);
    WindowResumes(s, pageSize, StartIndex(s, token), page);
  }

  /** One turn of `FollowTokens`: a non-empty page extends the documents
      seen so far, its token points right behind them, and one page of the
      remainder is used up. */
  lemma Advance(s: Store, pageSize: nat, pages: seq<Page>, pos: nat, token: Option<Key>, page: Page, left: int,
                pages': seq<Page>, pos': nat, token': Option<Key>, left': int)
    requires Valid(s) && pageSize >= 1
    requires pos == StartIndex(s, token) && Resumes(s, pageSize, pos, page) && |page.docs| > 0
    requires Concat(pages) == s[..pos] && pos + left == |s|
    requires forall k :: 0 <= k < |pages| ==> Full(pages[k])
    requires pages' == pages + [page] && pos' == pos + |page.docs| && token' == page.nextToken
    requires left' == left - |page.docs|
    ensures pos' == StartIndex(s, token') && Concat(pages') == s[..pos'] && pos' + left' == |s|
    ensures forall k :: 0 <= k < |pages'| ==> Full(pages'[k])
    ensures 0 <= left' < left
    ensures |pages'| + PagesFor(left', pageSize) == |pages| + PagesFor(left, pageSize)
  {
    var m := |page.docs|;
    ConcatStep(s, pages, page, pos, m, pages', pos');
    PagesForStep(left, m, left', pageSize);
    AllFull(pages, page);
  }

  lemma ConcatStep(s: seq<Snapshot>, pages: seq<Page>, page: Page, pos: nat, m: nat, pages': seq<Page>, pos': nat)
    requires pos + m <= |s| && Concat(pages) == s[..pos] && page.docs == s[pos..pos + m]
    requires pages' == pages + [page] && pos' == pos + m
    ensures Concat(pages') == s[..pos']
  {
    ConcatSnoc(pages, page);
    PrefixJoin(s, pos, pos + m);
  }

  /** Appending any page keeps every earlier page as it was. */
  lemma AllFullBut(pages: seq<Page>, page: Page, pages': seq<Page>)
    requires forall k :: 0 <= k < |pages| ==> Full(pages[k])
    requires pages' == pages + [page]
    ensures forall k :: 0 <= k < |pages'| - 1 ==> Full(pages'[k])
  {
  }

  lemma AllFull(pages: seq<Page>, page: Page)
    requires forall k :: 0 <= k < |pages| ==> Full(pages[k])
    requires Full(page)
    ensures forall k :: 0 <= k < |pages + [page]| ==> Full((pages + [page])[k])
  {
  }

  /** An empty page is handed out only at the end of the collection. */
  lemma EmptyAtEnd(s: Store, pageSize: nat, pos: nat, page: Page)
    requires pageSize >= 1 && Resumes(s, pageSize, pos, page) && |page.docs| == 0
    ensures pos == |s| && page.nextToken.None?
  {
  }

  /** Once nothing is left, the pages so far and the closing empty one
      make one more request than there are non-empty pages. */
  lemma CountPages(pages: seq<Page>, page: Page, pages': seq<Page>, left: nat, n: nat, pageSize: nat)
    requires pageSize >= 1 && left == 0
    requires |pages| + PagesFor(left, pageSize) == PagesFor(n, pageSize)
    requires pages' == pages + [page]
    ensures |pages'| == (n + pageSize - 1) / pageSize + 1
  {
    PagesForIsCeiling(n, pageSize);
  }

  /** The empty page that ends `FollowTokens` completes the walk. */
  lemma Close(s: Store, pageSize: nat, pages: seq<Page>, pos: nat, page: Page, left: int, pages': seq<Page>)
    requires pageSize >= 1
    requires pos == |s| && |page.docs| == 0 && page.nextToken.None?
    requires Concat(pages) == s[..pos] && pos + left == |s|
    requires |pages| + PagesFor(left, pageSize) == PagesFor(|s|, pageSize)
    requires forall k :: 0 <= k < |pages| ==> Full(pages[k])
    requires pages' == pages + [page]
    ensures Concat(pages') == s
    ensures |pages'| == (|s| + pageSize - 1) / pageSize + 1
    ensures |pages'[|pages'| - 1].docs| == 0 && pages'[|pages'| - 1].nextToken.None?
    ensures forall k :: 0 <= k < |pages'| - 1 ==> Full(pages'[k])
  {
    ConcatStep(s, pages, page, pos, 0, pages', pos);
    assert s[..pos] == s;
    CountPages(pages, page, pages', 0, |s|, pageSize);
    AllFullBut(pages, page, pages');
  }

  /** A caller paging through the collection: it starts without a token and
      passes each returned token back until a page comes without one.
      It visits every document exactly once in ascending id order, issuing
      `ceil(n / pageSize) + 1` requests; only the last page is empty. */
  method FollowTokens(s: Store, pageSize: nat) returns (pages: seq<Page>)
    requires Valid(s) && pageSize >= 1
    ensures Concat(pages) == s
    ensures |pages| == (|s| + pageSize - 1) / pageSize + 1
    ensures |pages[|pages| - 1].docs| == 0 && pages[|pages| - 1].nextToken.None?
    ensures forall k :: 0 <= k < |pages| - 1 ==> Full(pages[k])
  {
    var token: Option<Key> := None;
    var pos := 0;
    pages := [];
    var page := NextPage(s, pageSize, token);
    ghost var total := PagesFor(|s|, pageSize);
    ghost var left: int := |s|;
    while |page.docs| > 0
      invariant pos == StartIndex(s, token) && page == NextPage(s, pageSize, token)
      invariant Concat(pages) == s[..pos]
      invariant 0 <= left && pos + left == |s|
      invariant |pages| + PagesFor(left, pageSize) == total
      invariant forall k :: 0 <= k < |pages| ==> Full(pages[k])
      decreases left
    {
      NextPageResumes(s, pageSize, token);
      ghost var (pages0, pos0, token0, left0) := (pages, pos, token, left);
      pages := pages + [page];
      pos := pos + |page.docs|;
      token := page.nextToken;
      left := left - |page.docs|;
      Advance(s, pageSize, pages0, pos0, token0, page, left0, pages, pos, token, left);
      page := NextPage(s, pageSize, token);
    }
    NextPageResumes(s, pageSize, token);
    EmptyAtEnd(s, pageSize, pos, page);
    ghost var pages0 := pages;
    pages := pages + [page];
    Close(s, pageSize, pages0, pos, page, left, pages);
  }

  lemma DivisionStep(x: nat, d: nat)
    requires d >= 1
    ensures (x + d) / d == x / d + 1
  {
    var q := x / d;
    assert x == q * d + x % d;
    assert (q + 1) * d == q * d + d;
    DivisionOfTail(q + 1, d, x % d);
  }

  /** The worked example: ids "a" < "b" < "c" and pages of two. The second
      page is short and still carries a token; the third request returns
      an empty page without one. */
  lemma ThreeDocumentsInPagesOfTwo(da: Doc, db: Doc, dc: Doc)
    ensures var s := [Snapshot("a", da), Snapshot("b", db), Snapshot("c", dc)];
            && Valid(s)
            && Paginate(s, NoFaults, 2, None) == Ok(Page([s[0], s[1]], Some("b")))
            && Paginate(s, NoFaults, 2, Some("b")) == Ok(Page([s[2]], Some("c")))
            && Paginate(s, NoFaults, 2, Some("c")) == Ok(Page([], None))
            && Paginate(s, NoFaults, 2, Some("zz")) == Paginate(s, NoFaults, 2, None)
  {
    var s := [Snapshot("a", da), Snapshot("b", db), Snapshot("c", dc)];
    assert Less("a", "b") && Less("b", "c") && Less("a", "c");
    assert s[0..2] == [s[0], s[1]] && s[2..3] == [s[2]];
    assert Valid(s);
    assert Contents(s[2..]) == map["c" := dc];
    assert Contents(s[1..]) == map["c" := dc, "b" := db];
    assert Contents(s) == map["c" := dc, "b" := db, "a" := da];
    SortedIndexOf(s, 1);
    SortedIndexOf(s, 2);
    PageWindow(s, 2, None);
    PageWindow(s, 2, Some("b"));
    PageWindow(s, 2, Some("c"));
    PageWindow(s, 2, Some("zz"));
  }
}

=== FILE: results.dfy ===
/** Optional values and success/failure results, the model's stand-in for
    Python's `None` and for raised exceptions. */
module Results {

  datatype Option<+T> = None | Some(value: T) {

    /** The value, or `default` when absent. */
    function GetOr(default: T): T {
      match this
      case Some(v) => v
      case None => default
    }

    /** The value as a success, or `error` as the failure when absent. */
    function ToResult<E>(error: E): Result<T, E> {
      match this
      case Some(v) => Ok(v)
      case None => Err(error)
    }
  }

  /** Either a returned value or a raised error; usable with `:-`. */
  datatype Result<+T, +E> = Ok(value: T) | Err(error: E) {

    predicate IsFailure() {
      Err?
    }

    function PropagateFailure<U>(): Result<U, E>
      requires Err?
    {
      Err(error)
    }

    function Extract(): T
      requires Ok?
    {
      value
    }
  }
}

=== FILE: user_repository.dfy ===
/** `UserRepository`: users kept in the store under their email. The stored
    document is the user's `dict()`, `{"email": ..., "password": ...}`; the
    read side renames `password` to `hashed_password`. */
module UserRepository {
  import opened Results
  import opened Backend
  import opened Errors
  import opened Firestore

  /** The `UserCreate` model: what a caller submits. */
  datatype UserCreate = UserCreate(email: string, password: string)

  /** The `User` model: only the email survives pydantic's field filtering. */
  datatype User = User(email: string)

  /** The `UserInDB` model. */
  datatype UserInDB = UserInDB(email: string, hashedPassword: string)

  /** `user.dict()`. */
  function UserDict(u: UserCreate): (d: Doc)
    ensures d.Keys == {"email", "password"}
    ensures d["email"] == Str(u.email) && d["password"] == Str(u.password)
  {
    map["email" := Str(u.email), "password" := Str(u.password)]
  }

  /** `add_user`: creates the user's document under its email and returns
      the user; any error of the store client propagates. */
  function AddUser(s: Store, fails: Oracle, u: UserCreate): (r: Step<User>)
    requires Valid(s)
    ensures Valid(r.store)
    ensures var c := CreateDocument(s, fails, u.email, UserDict(u));
            && r.store == c.store
            && (r.outcome.Err? <==> c.outcome.Err?)
            && (r.outcome.Err? ==> r.outcome.error == c.outcome.error)
    ensures r.outcome.Ok? ==> r.outcome.value == User(u.email)
    ensures r.outcome.Ok? ==> Contents(r.store) == Contents(s)[u.email := UserDict(u)]
    ensures r.outcome == Err(Firestore(DocumentAlreadyExists))
            <==> u.email != "" && !fails(Create(u.email)) && u.email in Contents(s)
  {
    var c := CreateDocument(s, fails, u.email, UserDict(u));
    match c.outcome
    case Ok(_) => Step(c.store, Ok(User(u.email)))
    case Err(e) => Step(c.store, Err(e))
  }

  /** `user_data.pop('password')` into `hashed_password`, then `UserInDB(**user_data)`:
      a document without `password` raises `KeyError`; a missing or
      non-string `email` or password fails model validation. */
  function FromStored(d: Doc): (r: Result<UserInDB, Error>)
    ensures "password" !in d ==> r == Err(Raw(KeyError("password")))
    ensures r.Ok? <==> "password" in d && d["password"].Str? && "email" in d && d["email"].Str?
    ensures r.Ok? ==> r.value == UserInDB(d["email"].s, d["password"].s)
    ensures r.Err? && "password" in d ==> r.error.Raw? && r.error.fault.ValidationError?
  {
    if "password" !in d then Err(Raw(KeyError("password")))
    else
      var data := (d - {"password"})["hashed_password" := d["password"]];
      match (Field(data, "email"), data["hashed_password"])
      case (Some(Str(email)), Str(hashed)) => Ok(UserInDB(email, hashed))
      case (Some(Str(_)), _) => Err(Raw(ValidationError("hashed_password")))
      case _ => Err(Raw(ValidationError("email")))
  }

  /** `get_user_by_email`. The client raises on an absent document, so the
      `None` branch is never taken: a success always holds a user. */
  function GetUserByEmail(s: Store, fails: Oracle, email: string): (r: Result<Option<UserInDB>, Error>)
    ensures r.Ok? ==> r.value.Some?
    ensures GetDocument(s, fails, email).Err? ==> r == Err(GetDocument(s, fails, email).error)
    ensures r == Err(Firestore(DocumentNotFound))
            <==> email != "" && !fails(Read(email)) && email !in Contents(s)
    ensures r.Ok? <==> GetDocument(s, fails, email).Ok? && FromStored(Contents(s)[email]).Ok?
    ensures r.Ok? ==>
              var stored := Contents(s)[email];
              r.value.value == UserInDB(stored["email"].s, stored["password"].s)
  {
    var doc :- GetDocument(s, fails, email);
    var user :- FromStored(doc.data);
    Ok(Some(user))
  }

  /** `delete_user`: the client's existence-checked delete under the email. */
  function DeleteUser(s: Store, fails: Oracle, email: string): (r: Step<()>)
    requires Valid(s)
    ensures Valid(r.store)
    ensures r.outcome.Ok? <==> GetDocument(s, fails, email).Ok? && !fails(Delete(email))
    ensures r.outcome.Ok? ==> Contents(r.store) == Contents(s) - {email}
    ensures r.outcome.Err? ==> r.store == s
    ensures r.outcome == Err(Firestore(DocumentNotFound))
            <==> email != "" && !fails(Read(email)) && email !in Contents(s)
    ensures GetDocument(s, fails, email).Err? ==> r.outcome == Err(GetDocument(s, fails, email).error)
    ensures GetDocument(s, fails, email).Ok? && fails(Delete(email)) ==>
              r.outcome == Err(Firestore(DocumentDelete))
  {
    DeleteDocument(s, fails, email)
  }

  /** A user that was added reads back with the submitted password as its
      hashed password: the rename on read undoes the field name on write. */
  lemma AddThenGet(s: Store, fails: Oracle, u: UserCreate)
    requires Valid(s)
    requires AddUser(s, fails, u).outcome.Ok?
    ensures GetUserByEmail(AddUser(s, fails, u).store, fails, u.email)
            == Ok(Some(UserInDB(u.email, u.password)))
  {
  }

  /** Adding an email that is already stored fails with the client's
      conflict error and leaves the store as it was. */
  lemma AddDuplicate(s: Store, fails: Oracle, u: UserCreate)
    requires Valid(s) && u.email in Contents(s)
    requires u.email != "" && !fails(Create(u.email))
    ensures AddUser(s, fails, u) == Step(s, Err(Firestore(DocumentAlreadyExists)))
  {
  }

  /** A user that was deleted is no longer found. */
  lemma DeleteThenGet(s: Store, fails: Oracle, email: string)
    requires Valid(s)
    requires DeleteUser(s, fails, email).outcome.Ok?
    ensures GetUserByEmail(DeleteUser(s, fails, email).store, fails, email) == Err(Firestore(DocumentNotFound))
  {
  }
}

=== FILE: user_service.dfy ===
/** `UserService`: registration with a hashed password, password
    authentication, and bearer-token responses.

    The bcrypt hash and its check are parameters (`hash`, `verify`), as are
    the clock, the environment and the token encoder. */
module UserService {
  import opened Results
  import opened Backend
  import opened Errors
  import opened Logging
  import opened UserRepository
  import Auth

  /** `ACCESS_TOKEN_EXPIRE_MINUTES`. */
  const AccessTokenExpireMinutes: int := 30

  /** What `create_user` leaves behind: the collection, the returned user
      (`None` when the repository raised), the caller's `user_in` object as
      mutated in place, and the entries logged. */
  datatype Created = Created(store: Store, user: Option<User>, userIn: UserCreate, logs: seq<LogEntry>)

  /** A response dictionary of `create_token_for_user`. */
  type TokenResponse = map<string, string>

  /** `create_user`: hashes the password into the caller's object, then
      stores the user; a repository exception becomes `None` and an ERROR
      entry. The plaintext password is never stored. */
  function CreateUser(s: Store, fails: Oracle, hash: string -> string, userIn: UserCreate): (r: Created)
    requires Valid(s)
    ensures Valid(r.store)
    ensures r.userIn == UserCreate(userIn.email, hash(userIn.password))
    ensures r.user.Some? <==> userIn.email != "" && !fails(Create(userIn.email))
                              && userIn.email !in Contents(s) && !fails(Read(userIn.email))
    ensures r.user.Some? ==> r.user.value == User(userIn.email) && r.logs == []
    ensures r.user.None? ==> r.logs == [LogEntry(ERROR, "Failed to create user: ", Name(userIn.email))]
    ensures if userIn.email != "" && !fails(Create(userIn.email)) && userIn.email !in Contents(s)
            then Contents(r.store) == Contents(s)[userIn.email := map["email" := Str(userIn.email),
                                                                      "password" := Str(hash(userIn.password))]]
            else r.store == s
  {
    var hashed := userIn.(password := hash(userIn.password));
    var step := AddUser(s, fails, hashed);
    match step.outcome
    case Ok(user) => Created(step.store, Some(user), hashed, [])
    case Err(_) => Created(step.store, None, hashed, [LogEntry(ERROR, "Failed to create user: ", Name(hashed.email))])
  }

  /** `authenticate_user`: the stored user when the password checks out
      against its hash, `None` when it does not. The lookup is not guarded,
      so an unknown email raises `DocumentNotFoundError` instead of
      returning `None`. */
  function AuthenticateUser(s: Store, fails: Oracle, verify: (string, string) -> bool, email: string, password: string)
    : (r: Result<Option<UserInDB>, Error>)
    ensures r.Err? <==> GetUserByEmail(s, fails, email).Err?
    ensures r.Err? ==> r.error == GetUserByEmail(s, fails, email).error
    ensures email != "" && !fails(Read(email)) && email !in Contents(s) ==> r == Err(Firestore(DocumentNotFound))
    ensures r.Ok? && r.value.Some? ==>
              GetUserByEmail(s, fails, email) == Ok(r.value) && verify(password, r.value.value.hashedPassword)
    ensures r.Ok? && r.value.None? ==>
              var found := GetUserByEmail(s, fails, email).value.value;
              !verify(password, found.hashedPassword)
  {
    var found :- GetUserByEmail(s, fails, email);
    if found.Some? && verify(password, found.value.hashedPassword) then Ok(found) else Ok(None)
  }

  /** The claims a user's token carries before `exp` is added. */
  function SubjectClaims(email: string): Auth.Claims {
    map["sub" := Auth.Text(email)]
  }

  /** `create_token_for_user`: a bearer-token response for a thirty-minute
      token about `email`, or `None` with an ERROR entry when minting
      raises. */
  function CreateTokenForUser(email: string, now: Auth.Instant, env: Auth.Env, sign: Auth.Signer)
    : (r: Logged<Option<TokenResponse>>)
    ensures var claims := map["sub" := Auth.Text(email),
                              "exp" := Auth.Time(now + AccessTokenExpireMinutes * Auth.MicrosPerMinute)];
            match sign(claims, env.secretKey, env.algorithm)
            case Some(t) => r == Logged(Some(map["access_token" := t, "token_type" := "bearer"]), [])
            case None =>
              r == Logged(None, [LogEntry(ERROR, "Failed to create access token for user: ", Name(email))])
  {
    var delta := AccessTokenExpireMinutes * Auth.MicrosPerMinute;
    match Auth.CreateAccessToken(SubjectClaims(email), Some(delta), now, env, sign)
    case Ok(t) => Logged(Some(map["access_token" := t, "token_type" := "bearer"]), [])
    case Err(_) => Logged(None, [LogEntry(ERROR, "Failed to create access token for user: ", Name(email))])
  }

  /** A registered user authenticates with a password exactly when that
      password verifies against the hash of the one registered with, and is
      then returned with that hash. */
  lemma CreateThenAuthenticate(s: Store, fails: Oracle, hash: string -> string, verify: (string, string) -> bool,
                               userIn: UserCreate, password: string)
    requires Valid(s)
    requires CreateUser(s, fails, hash, userIn).user.Some?
    ensures var s' := CreateUser(s, fails, hash, userIn).store;
            var expected := UserInDB(userIn.email, hash(userIn.password));
            && (verify(password, hash(userIn.password)) ==>
                  AuthenticateUser(s', fails, verify, userIn.email, password) == Ok(Some(expected)))
            && (!verify(password, hash(userIn.password)) ==>
                  AuthenticateUser(s', fails, verify, userIn.email, password) == Ok(None))
  {
    var hashed := UserCreate(userIn.email, hash(userIn.password));
    AddThenGet(s, fails, hashed);
  }
}
